=== FILE: README.md ===
# Stock fundamentals scoring pipeline: a Dafny model

This project models the scoring and valuation core of a stock-analysis tool.

The tool scores a listed company on three axes:
- growth momentum, from monthly revenue;
- profit quality, from quarterly gross and operating margins;
- shareholder return, from annual ROE and EPS.

It then combines the three scores into a master score and a verdict. From the historical P/E band, the price-to-book ratio and a bond yield it derives price targets and a price verdict.

The model has one module per stage. Two data-preparation routines from the data layer feed the stages:
- `Growth` (`strategy_growth.py`): rolling means and deviation of the monthly year-over-year growth, trend, burst and structure scores, the cycle state, the gold ratio, the composite score, the action and the next-year growth projection.
- `Profit` (`strategy_profit.py`): the latest and 4-quarter margins, the least-squares slope over up to 8 quarters, the four-quadrant matrix, the reversal navigator, the profit and improvement scores, the total and the action.
- `Shareholder` (`strategy_shareholder.py`): the 4-year mean ROE, the 3-year EPS CAGR, the ROE level, ROE growth and EPS growth scores, the next-year EPS, the conversion label, the master score and the ten-way final verdict.
- `Valuation` (`strategy_valuation.py`): the winsorised P/E statistics, NAV, the cheap/fair/expensive targets, the intrinsic value compounded over ten years and the seven-way price verdict.
- `Revenue` (`data.py`, `get_revenue`): the monthly revenue table with Mon_YoY, Cum_Rev and Cum_YoY.
- `Annual` (`data.py`, the per-year loop of `get_shareholder_return`): one row per calendar year, with annualised EPS, and ROE from annualised net income over averaged equity. This loop is an imperative `method` with a `while` loop, proved against the function `RowOf`.

Supporting modules:
- `Numeric`: round-half-to-even at 2 to 4 places, powers, bisection square and cube roots, and the unguarded percent change (a zero base gives `None`).
- `Stats`: sum, mean, max, min, the sample standard deviation, the numpy-style linear quantile, clipping and positive filtering.
- `Sorting`: an insertion sort by a real key, standing in for `sort_values`.

A NaN or infinite value that the source can produce and that changes a result is modelled as `None` of an `Option`. Examples are a percent change over a zero base and the standard deviation of a single value.

## Model

| member | source | states |
|---|---|---|
| Growth.AnalyzeGrowth | strategy_growth.py:8-192 | No result for fewer than 12 rows. Otherwise the result is `Diagnose` of the latest and previous Mon_YoY, the latest Cum_YoY and the 3- and 6-month `RollingMean` and 6-month `RollingStd` of Mon_YoY. As consequences: the deviation is non-negative; each score lies in its bucket set; high growth (Mon_YoY >= 0.2) floors the trend, structure and stability scores; the trend label carries the trend score; the composite lies in [28, 100]; the action is full speed exactly at >= 90; the month-on-month change is undefined exactly when the previous Mon_YoY is 0 |
| Growth.Diagnose | strategy_growth.py:49-164 | Ties every field of the diagnosis to the functions above: trend, burst and structure are the latest Mon_YoY minus the 6-month mean, the 3-month minus the 6-month mean, and the 6-month mean minus Cum_YoY; each score and label is `TrendScore`/`TrendLabelOf`, `BurstScore`/`BurstLabelOf` (threshold half the deviation), `StructScore`/`StructLabelOf`, `StableScore`/`GoldLabelOf` of the gold ratio; the state is `StateOf`, the composite `TotalScore` of the four scores, the action `ActionOf` of the composite and the projection `NextGrowth` of Cum_YoY, the 3-month mean and the trend |
| Growth.RollingMean | strategy_growth.py:28-29 | The rounded 3- or 6-month mean lies between the window's minimum and maximum, up to half a unit in the 3rd place |
| Growth.RollingStd | strategy_growth.py:31 | The rounded 6-month sample deviation is never negative |
| Growth.TrendScore | strategy_growth.py:58-62 | The score is one of 20..100; it is 100 exactly when trend >= 0.1; it is 20 exactly when trend < -0.05 without high growth; high growth guarantees at least 80 |
| Growth.TrendLabelMatchesScore | strategy_growth.py:50-62 | The trend label's number always equals the trend score, the separate overheated label included |
| Growth.TrendScoreMonotone | strategy_growth.py:58-62 | A larger trend never lowers the trend score |
| Growth.BurstScore | strategy_growth.py:80-84 | The score is one of 20..100; it is 100 exactly when burst >= 0.05; a 3-month mean >= 0.15 guarantees at least 60 |
| Growth.BurstLabelMatchesScore | strategy_growth.py:70-84 | When burst exceeds half the deviation, and the latest month and the 3-month mean sit on the same side of 15%, the burst label's number equals the score |
| Growth.BurstLabelAtMostScore | strategy_growth.py:70-84 | Under the same 15% agreement, the label never reports more than the score |
| Growth.BurstScoreMonotone | strategy_growth.py:80-84 | A larger burst never lowers the burst score |
| Growth.StructScore | strategy_growth.py:99-102 | The score is one of 40..100; it is 40 exactly when structure < -0.03 without high growth; high growth guarantees at least 60 |
| Growth.StructLabelMatchesScore | strategy_growth.py:92-102 | The strong-pullback override only replaces a score of 60; otherwise the label's number is the score. The source's pullback label carries no number; `StructPoints` gives it 60 by convention so that the two can be compared |
| Growth.StructScoreMonotone | strategy_growth.py:99-102 | A larger structure value never lowers its score |
| Growth.StateOf | strategy_growth.py:109-114 | Converging holds exactly when trend < 0 with high growth; each other state implies its rule's ordering of trend, burst and structure |
| Growth.StateFallsThrough | strategy_growth.py:109-114 | When none of the first five rules applies, the state is consolidation |
| Growth.ConvergingWins | strategy_growth.py:109 | The first rule takes precedence whatever burst and structure are |
| Growth.RiskBase | strategy_growth.py:121 | The risk base is at least 0.03 and at least the deviation, and equals the deviation once it reaches 0.03 |
| Growth.GoldRatio | strategy_growth.py:122 | The ratio is positive exactly when trend is, and multiplying it by the risk base gives back the trend |
| Growth.StableScore | strategy_growth.py:134-137 | The score is one of 40..100; it is 100 exactly when the ratio >= 1.5; high growth guarantees at least 60 |
| Growth.GoldLabelMatchesScore | strategy_growth.py:124-137 | Away from the three boundary ratios, and away from a small positive ratio under high growth, the gold label's number equals the stability score |
| Growth.GoldLabelBoundary | strategy_growth.py:124-135 | At ratio exactly 1.5 the label says 80 while the score is 100, because the label compares strictly |
| Growth.StableScoreMonotone | strategy_growth.py:134-137 | A larger ratio never lowers the stability score |
| Growth.TotalScoreBounds | strategy_growth.py:143 | With every sub-score in its bucket set, the weighted composite lies in [28, 100] |
| Growth.TotalScoreMonotone | strategy_growth.py:143 | Raising any sub-score never lowers the composite |
| Growth.ActionOf | strategy_growth.py:153-158 | Full speed exactly when the composite is >= 90; decline exactly when it is < 30 |
| Growth.ActionMonotone | strategy_growth.py:153-158 | A higher composite never earns a worse action |
| Growth.NextGrowthProperties | strategy_growth.py:164 | When the three inputs agree on g the projection is 1.1 g, and the projection keeps the inputs' common sign |
| Numeric.PercentChange | strategy_growth.py:36-38 | Undefined exactly when the previous value is 0; otherwise non-negative when the value did not fall, non-positive when it did not rise, and 0 when unchanged |
| Profit.AnalyzeProfit | strategy_profit.py:24-145 | Only an insufficiency status for fewer than 4 quarters; otherwise exactly `ProfitOfSeries` of the GPM and OPM series of the rows in date order, so all of that member's facts hold of the stage; the scores lie in their bucket sets and the total in [35, 105] |
| Profit.ProfitOfSeries | strategy_profit.py:27-143 | The profit score is 100 exactly when the latest OPM is the high of the last 8 quarters or is >= 0.035; the quadrant is golden expansion exactly when growth trend and improvement are both positive; the improvement score is taken on the unrounded improvement; the margin trend is "both rising" exactly when both margins rose on the quarter; the slopes are those of the full series. The reported margins are rounded to 3 places and the improvement to 2; the changes are `PercentChange` of the last two quarters; the quadrant is `QuadrantOf`, the reversal `ReversalOf` of the OPM slope, latest OPM and 4-quarter mean; the profit score is `ProfitScore` against the 8-quarter high; the total is `ProfitTotal` of the two scores and slopes and the action is `ProfitActionOf` of the total |
| Profit.SortByDate | strategy_profit.py:27 | The rows come back in date order and as a permutation of the input |
| Profit.CalculateSlope | strategy_profit.py:5-18 | The slope is 0 for fewer than 2 points |
| Profit.CalculateSlopeProperties | strategy_profit.py:5-18 | A constant series has slope 0, and a non-decreasing series has a non-negative slope |
| Profit.IncreasingSlope | strategy_profit.py:12-15 | The least-squares slope is non-negative on a non-decreasing series and positive on a strictly increasing one |
| Profit.SlopeSign | strategy_profit.py:12-15 | The slope has the sign of the index-centred sum, which the proofs about monotone series use |
| Profit.CentredNonDecreasing | strategy_profit.py:12-15 | The index-centred sum of a non-decreasing series is non-negative |
| Profit.ConstantSlope | strategy_profit.py:12-15 | A constant series has least-squares slope 0 |
| Profit.QuadrantOf | strategy_profit.py:72-76 | Each of the four quadrants holds exactly on its sign combination of trend and improvement |
| Profit.ReversalOf | strategy_profit.py:82-85 | Strong expansion, structural turn and fatigue each hold exactly on their sign combination of slope and improvement |
| Profit.ReversalDegenerate | strategy_profit.py:82-85 | A zero slope, or a latest OPM equal to its mean, always reads as deteriorating |
| Profit.ProfitScore | strategy_profit.py:91-98 | The score is one of 40..100; it is 100 exactly when the latest OPM is the 8-quarter high or >= 0.035; it is 40 exactly when the OPM is below both the high and 0.027 |
| Profit.ProfitScoreMonotone | strategy_profit.py:92-98 | A higher latest OPM never lowers the profit score |
| Profit.PeakOpmScores100 | strategy_profit.py:91-92 | An 8-quarter high in the latest OPM always scores 100 in the full stage |
| Profit.ImprovementScore | strategy_profit.py:102-105 | The score is one of 40..100; it is 100 exactly when the improvement is >= 0.005, and 40 exactly when it is < -0.001 |
| Profit.ImprovementScoreMonotone | strategy_profit.py:102-105 | A larger improvement never lowers the score |
| Profit.ProfitTotalBounds | strategy_profit.py:108-111 | The total lies in [35, 105]; it is 105 exactly when both scores are 100 and both slopes are positive |
| Profit.ProfitActionOf | strategy_profit.py:117-121 | Full sprint exactly when the total is >= 85; avoid exactly when it is < 40 |
| Profit.ProfitActionMonotone | strategy_profit.py:117-121 | A higher total never earns a worse action |
| Shareholder.AnalyzeShareholder | strategy_shareholder.py:4-136 | The latest ROE and EPS come from the last row; the ROE and EPS changes are undefined exactly when the prior year's value is 0; the 4-year mean is `RoeMean4` of the ROEs and the CAGR is `EpsCagr` of the latest EPS and that of three years before: non-negative when EPS did not fall, in (-1, 0] when it did not rise, and 0 unless both endpoints are positive; the return score is `ReturnScore` of the rows and lies in [28, 100]; the conversion is `ConversionOf` of the EPS score, trend and margins; the next-year EPS is `NextEps` of the latest EPS, the growth stage's projection and the margins; the master score is 0.3 growth + 0.3 profit + 0.4 return; the verdict is `VerdictOf` of the master and stage scores, so King exactly at >= 90, Landmine exactly below 40 and neutral on [40, 60); a latest OPM at or below its mean gives the steady-expansion conversion |
| Shareholder.RoeMean4 | strategy_shareholder.py:10-12 | The rounded 4-year mean ROE lies between the minimum and maximum of the last four ROEs, up to half a unit in the 4th place |
| Shareholder.EpsCagr | strategy_shareholder.py:17-22 | 0 unless both endpoints are positive; otherwise above -1, non-negative when EPS grew and non-positive when it shrank |
| Shareholder.RoeLevelScore | strategy_shareholder.py:28-38 | The score is one of 40..100; it is 100 exactly when the ROE is the 4-year high or the mean is >= 0.15; below the high, at least 80 exactly when the mean is >= 0.10, and 40 exactly when the mean is < 0.08 |
| Shareholder.RoeLevelMonotone | strategy_shareholder.py:33-38 | A higher 4-year mean never lowers the level score |
| Shareholder.RoeGrowthScore | strategy_shareholder.py:44-62 | Rising ROE with falling EPS scores 40; 100 exactly when ROE rose three years running and EPS did not fall; an ROE below both its value four years back and its mean scores 40; otherwise an ROE at least its value four years back scores at least 60 |
| Shareholder.EpsGrowthScore | strategy_shareholder.py:68-74 | After a loss year the score is 100 exactly when EPS turned positive, else 20; after a profit year it is at least 80 exactly when the CAGR is >= 0.12, and 20 exactly when the CAGR is negative |
| Shareholder.EpsGrowthMonotone | strategy_shareholder.py:70-74 | A higher CAGR never lowers the EPS score |
| Shareholder.ProfitTurnedLoss | strategy_shareholder.py:19-22 | A profit that turned into a loss, and a flat profit, both score 40, because the CAGR falls back to 0 |
| Shareholder.EpsGrowthDirection | strategy_shareholder.py:17-22 | From a positive base, growth scores at least 40 and decline at most 40 |
| Shareholder.EpsRoeScoreBounds | strategy_shareholder.py:80 | The return score lies in [28, 100]; it is 100 exactly when all three sub-scores are 100 |
| Shareholder.ReturnScore | strategy_shareholder.py:29-80 | The shareholder-return score of at least four annual rows, built from the ROE level, ROE growth and EPS growth scores of the last four years, lies in [28, 100] |
| Shareholder.MarginAdjustment | strategy_shareholder.py:90-91 | The factor is 1.05 or 0.95, above 1 exactly when the latest OPM beats its mean |
| Shareholder.NextEpsProperties | strategy_shareholder.py:85-92 | For growth above -100%, the projection keeps the sign of the latest EPS, and a better margin projects more |
| Shareholder.ConversionOf | strategy_shareholder.py:98-101 | High-quality expansion exactly when the EPS score is >= 80 with improving margin; efficiency gain exactly when the score is below 80, trend is positive and margin improves; steady expansion whenever margin does not improve |
| Shareholder.MasterScoreBounds | strategy_shareholder.py:107-110 | With the three stage scores in their ranges, the master score lies in [30.1, 101.5] |
| Shareholder.MasterScoreMonotone | strategy_shareholder.py:110 | Raising any stage score never lowers the master score |
| Shareholder.VerdictOf | strategy_shareholder.py:113-122 | King exactly at >= 90; Landmine exactly below 40; Neutral for 40..60; overheat warning and momentum decline only under their guards; with master >= 60 and profit >= 60 never neutral or momentum decline |
| Shareholder.ImprovementGate | strategy_shareholder.py:116 | On the improvement rounded to 2 places, "> 0.001" only passes values of at least 0.01, so raw improvements below 0.005 never open the structural-turn verdict |
| Annual.ShareholderReturn | data.py:141-200 | One row per distinct year, in strictly ascending year order, every year of the data covered, row i being the year's row built from its quarters and the previous year's last equity |
| Annual.RowsFollowYears | data.py:142-144 | Rows built along the sorted distinct years are in strictly ascending year order and cover every year of the data |
| Annual.YearStep | data.py:145-200 | One loop iteration computes exactly the specified row for years[i] |
| Annual.YearsOf | data.py:142 | The distinct years, strictly ascending, holding exactly the years of the data |
| Annual.QuartersOf | data.py:145-146 | The quarters of one year, all from the data; non-empty for a year of the data |
| Annual.QuartersOfExact | data.py:145-146 | Every quarter of the year is taken, as often as it occurs in the data, and no other, so the quarter count is the number of the year's rows |
| Annual.LastQuarterIsLatest | data.py:145-189 | Over quarters in date order, the last quarter taken for a year is dated no earlier than any quarter of that year, so the row's date is that of the year's last published quarter |
| Annual.YearRow | data.py:146-200 | The row records the year, the quarter count and the last quarter's date, and is projected exactly when fewer than four quarters are published |
| Annual.AnnualisationFormula | data.py:151-160 | EPS is the year-to-date sum times 4 over the quarters published, rounded to 2 places; a full year is taken as published and a single quarter is multiplied by 4 |
| Annual.EquityPointsCount | data.py:163-177 | The equity points are one per quarter plus the previous year's last equity when there is a previous year; there is a single placeholder point without an equity column |
| Annual.NoEquityNoRoe | data.py:163-186 | Without an equity column, ROE is 0 |
| Annual.RoeRecoversIncome | data.py:186 | ROE is 0 on a zero mean equity; otherwise ROE times the mean equity gives back the annualised net income |
| Valuation.AnalyzeValuation | strategy_valuation.py:9-99 | No valuation exactly when there is no positive P/E; otherwise the price is the quote's; max, min and mean are those of `PeStatsOf` the positive P/Es, with min <= avg <= max within rounding of their range; the current P/E is the latest rounded to 2 places; NAV is `NavOf` the price and latest P/B; the targets are `TargetsOf` the mean and deviation times EPS, and cheap/expensive exist exactly when there are two positive P/Es; the bond yield is the percentage over 100; the intrinsic value is `IntrinsicValue` of NAV, the last annual ROE and the bond yield; the verdict is `VerdictOf` the price, targets and intrinsic value; a P/B <= 0 gives NAV and intrinsic value 0; Overheated exactly when the price is above every defined target |
| Valuation.StageBandOrdered | strategy_valuation.py:45-76 | With a non-negative EPS the stage's cheap <= fair <= expensive whenever the band has both ends, and a price above it is Overheated |
| Valuation.PeStatsOf | strategy_valuation.py:27-34 | The 95th percentile lies within the P/E range; rounded min <= mean <= max <= rounded cap; the deviation exists exactly for two or more values and is non-negative |
| Stats.Quantile | strategy_valuation.py:27 | The linear-interpolation quantile lies between the series' minimum and maximum |
| Stats.Clip | strategy_valuation.py:28 | Every clipped value is at most the cap and at most its original; values at or below the cap are kept and values above it become the cap |
| Stats.ClipLowersMean | strategy_valuation.py:27-28 | Winsorising never raises the mean, and strictly lowers it when some value exceeds the cap |
| Stats.SampleStd | strategy_valuation.py:34 | The sample deviation (ddof 1) exists exactly for two or more values and is non-negative |
| Stats.ConstantSpread | strategy_valuation.py:33-34 | A constant series has that constant as mean and deviation 0 |
| Stats.MeanBounds | strategy_valuation.py:33 | The mean lies between the minimum and maximum |
| Stats.Positives | strategy_valuation.py:20 | Exactly the positive values are kept, each as often as in the input |
| Valuation.NavOf | strategy_valuation.py:42 | NAV is 0 when P/B <= 0, and non-negative for a positive P/B and a non-negative price |
| Valuation.TargetsOf | strategy_valuation.py:45-61 | Fair is the mean P/E times EPS rounded to 2 places; with a deviation, cheap and expensive are (mean minus / plus deviation) times EPS, rounded; without one, the two outer targets are undefined |
| Valuation.TargetPriceMonotone | strategy_valuation.py:57-61 | With non-negative EPS, a higher P/E never gives a lower target |
| Valuation.TargetsOrdered | strategy_valuation.py:45-61 | With non-negative EPS, cheap <= fair <= expensive |
| Valuation.IntrinsicValueProperties | strategy_valuation.py:64-68 | A zero NAV has intrinsic value 0; when the capped ROE at least matches the bond yield, the intrinsic value is at least the rounded NAV |
| Valuation.GrownProperties | strategy_valuation.py:68 | Growth of a zero NAV is 0, and a factor of at least 1 never shrinks a non-negative NAV |
| Valuation.VerdictOf | strategy_valuation.py:70-76 | Absolute undervalued exactly when the price is at or below cheap and below intrinsic value; historic low exactly at or below cheap and not below intrinsic; overheated exactly above every target; at or above intrinsic value none of the three below-intrinsic verdicts |
| Valuation.VerdictByBand | strategy_valuation.py:70-76 | Within an ordered band, where the price falls decides the tier, and above the band the verdict is overheated |
| Valuation.SinglePeBand | strategy_valuation.py:45-46 | With a single positive P/E the band collapses onto the fair price: no cheap or premium tiers, and anything above fair is overheated |
| Revenue.GetRevenue | data.py:28-47 | An empty table for no data or fewer than 24 rows; otherwise a permutation of the rows in month order, the cumulative column is the year-to-date sum, Mon_YoY is defined exactly from the 13th row on where the lagged revenue is not 0, Cum_YoY exactly from the 13th row on where the lagged cumulative revenue is not 0, and both are the rounded 12-row changes there |
| Revenue.Change | data.py:41 | Undefined exactly on a zero base; otherwise non-negative for growth on a positive base, non-positive for decline, 0 when unchanged |
| Revenue.LaggedChangeProperties | data.py:41 | The 12-row change is defined exactly from the 13th row on where the value 12 rows back is not 0; it is non-negative for growth on a positive base, non-positive for decline, and 0 when unchanged |
| Revenue.YearToDateSteps | data.py:44 | The cumulative revenue starts with the first revenue, adds each month within a year, and restarts with a new year |
| Revenue.CumulativeRestarts | data.py:44 | In the prepared table the cumulative column restarts at every change of year and accumulates otherwise |
| Revenue.LagIsSameMonth | data.py:41-46 | With months running without gaps, the row 12 back is the same month of the previous year |
| Revenue.DefinedFromLag | data.py:41 | With no zero revenue, every row from the 13th on has a defined Mon_YoY |
| Revenue.SortedValid | data.py:37-38 | Sorting keeps every month in 1..12 |
| Sorting.SortBy | data.py:38 | The result is sorted by the key and is a permutation of the input |

## Left out

- Fetching and I/O: data retrieval from the market-data provider, the dashboard, logging and the `print` calls are not part of this model. The stages take already-fetched tables as parameters. `app.py` is not part of this model.
- The report text: labels are enumerations, not the display strings. The one-element tuple built for the last gold label at `strategy_growth.py:129` is modelled as the plain label `Scattered`.
- Floating point: every number is an exact real. `round` is half-to-even on exact reals, not on binary doubles, so ties that a double would not hit exactly can round differently.
- Shareholder.EpsCagr: the cube root is a 64-step bisection with proved error bounds, not the floating-point `** (1/3)`. The contract states the sign and range of the CAGR, not its exact digits.
- Numeric.CubeRoot: the result is only the upper end of a 64-step bracket.
- NaN beyond `Option`: pandas' NaN-skipping sums and means, NaN equities, NaN P/E or P/B values and an infinite percent change are not modelled. The model carries `None` where the source would hold NaN or inf in a reported field. Growth rows carry defined Mon_YoY and Cum_YoY values. `Revenue.DefinedFromLag` states when the revenue table meets this.
- Profit margins are assumed defined. `np.polyfit`'s failure branch (`except: return 0.0`) is not reachable on finite reals and is left out.
- Shareholder.AnalyzeShareholder: requires at least four annual rows, where the source raises an index error. It also takes the full growth and profit records: when the growth stage returned nothing (passed on as an empty dictionary, `app.py:280`) or the profit stage returned only a status (`strategy_profit.py:25`), the source raises a KeyError at `strategy_shareholder.py:85-87`, which the caller catches for that stock (`app.py:313`); that error path is not modelled. Valuation.AnalyzeValuation requires a non-empty annual table once a positive P/E exists, for the same reason.
- Revenue.GetRevenue: requires months in 1..12, where the source's date conversion raises. `pct_change`'s default forward fill is not modelled, because the revenue column has no missing values.
- Revenue.LagIsSameMonth: the 12-row lag is a year only when the monthly data has no gaps. The source assumes this and the lemma states it as a precondition.
- Sorting.SortBy: rows with equal keys may come out in any order, as with pandas' default quicksort. The model fixes one order.
- Annual.ShareholderReturn: the `q_count == 0` skip and the empty-points fallback at `data.py:148` and `data.py:182-183` are unreachable for a year taken from the data, and are not written. The `stock_id` column and the date formatting of the merged tables are left out.
- Stats.Positives: the contract states which values are kept and how often, not that they keep their order; every statistic the valuation stage takes of them (quantile, clip, max, min, mean, deviation) does not depend on the order.
- Valuation: `derived_eps` at `strategy_valuation.py:53` is computed and never used, and is left out.
- The merge and pivot of the quarterly statements before the loop in `data.py` are not part of this model. `Annual` takes the merged quarters in date order.

Behaviour of the code a reader may not expect:
- A percent change over a zero previous value yields inf or NaN in the code, not a defined fallback. `Numeric.PercentChange` returns `None` there.
- The valuation band is ordered cheap <= fair <= expensive only for a non-negative EPS. With a negative EPS the targets come out in reverse order, so `Valuation.TargetsOrdered` requires EPS >= 0.
- The gold label compares with `>` while the stability score uses `>=`, so the two disagree at the boundary ratios (`Growth.GoldLabelBoundary`).
- The structural-turn verdict tests the improvement after it is rounded to 2 places, so its `> 0.001` guard behaves as `>= 0.01` (`Shareholder.ImprovementGate`).

=== FILE: annual.dfy ===
/** The per-year loop of the shareholder-return preparation: the merged
    quarterly income statement and balance sheet, in date order, becomes one
    row per calendar year with net income and EPS annualised from the quarters
    published so far, and ROE taken against the mean of the equity points
    (last year's final equity, then every equity of this year). */
module Annual {
  import opened Numeric
  import opened Stats

  /** One quarter of the merged table: its calendar year, its date (as an
      ordinal), net income attributable to the parent, EPS and parent equity. */
  datatype Quarter = Quarter(year: int, date: int, netIncome: real, eps: real, equity: real)

  /** Which of the three value columns the merged table has at all. */
  datatype Columns = Columns(hasNetIncome: bool, hasEps: bool, hasEquity: bool)

  /** One output row. */
  datatype AnnualRow = AnnualRow(
    year: int,
    roe: real,
    eps: real,            // annualised, rounded to 2 places
    date: int,            // date of the year's last quarter
    qCount: nat,          // quarters published that year
    avgPointsUsed: nat,   // equity points averaged for ROE
    isProjected: bool)    // fewer than four quarters

  // ---------------------------------------------------------------- years

  function YearSet(qs: seq<Quarter>): set<int>
  {
    set k | 0 <= k < |qs| :: qs[k].year
  }

  ghost predicate Ascending(ys: seq<int>)
  {
    forall i, j :: 0 <= i < j < |ys| ==> ys[i] < ys[j]
  }

  /** Inserts y into the ascending, repetition-free ys unless it is there. */
  function InsertYear(y: int, ys: seq<int>): (r: seq<int>)
    requires Ascending(ys)
    ensures Ascending(r)
    ensures forall x :: x in r <==> x == y || x in ys
  {
    if ys == [] then [y]
    else if y < ys[0] then [y] + ys
    else if y == ys[0] then ys
    else
      var rest := InsertYear(y, ys[1..]);
      assert forall x :: x in ys <==> x == ys[0] || x in ys[1..];
      forall k | 0 <= k < |rest|
        ensures ys[0] < rest[k]
      {
        assert rest[k] in rest;
        if rest[k] != y {
          var j :| 0 <= j < |ys[1..]| && ys[1..][j] == rest[k];
          assert ys[1..][j] == ys[j + 1];
        }
      }
      [ys[0]] + rest
  }

  /** `sorted(df_all['year'].unique())`. */
  function YearsOf(qs: seq<Quarter>): (ys: seq<int>)
    ensures Ascending(ys)
    ensures forall y :: y in ys <==> y in YearSet(qs)
  {
    if qs == [] then []
    else
      var init := qs[..|qs| - 1];
      assert YearSet(qs) == YearSet(init) + {qs[|qs| - 1].year} by {
        assert forall k :: 0 <= k < |init| ==> init[k] == qs[k];
      }
      InsertYear(qs[|qs| - 1].year, YearsOf(init))
  }

  // ---------------------------------------------------------------- one year

  /** `df_all[df_all['year'] == y]`: the quarters of year y, in table order. */
  function QuartersOf(qs: seq<Quarter>, y: int): (r: seq<Quarter>)
    ensures forall k :: 0 <= k < |r| ==> r[k].year == y && r[k] in qs
    ensures |r| <= |qs|
    ensures y in YearSet(qs) ==> |r| > 0
  {
    if qs == [] then []
    else
      var init := QuartersOf(qs[..|qs| - 1], y);
      var last := qs[|qs| - 1];
      assert y in YearSet(qs) && last.year != y ==> y in YearSet(qs[..|qs| - 1]) by {
        if y in YearSet(qs) && last.year != y {
          var k :| 0 <= k < |qs| && qs[k].year == y;
          assert qs[..|qs| - 1][k] == qs[k];
        }
      }
      if last.year == y then init + [last] else init
  }

  /** Exactly the quarters of year y, each as often as in the table, so the
      quarter count is the number of the year's rows. */
  lemma {:induction false} QuartersOfExact(qs: seq<Quarter>, y: int)
    ensures forall q :: multiset(QuartersOf(qs, y))[q] == if q.year == y then multiset(qs)[q] else 0
  {
    if qs != [] {
      var init, last := qs[..|qs| - 1], qs[|qs| - 1];
      QuartersOfExact(init, y);
      assert qs == init + [last];
      assert multiset(qs) == multiset(init) + multiset{last};
      if last.year == y {
        assert QuartersOf(qs, y) == QuartersOf(init, y) + [last];
        assert multiset(QuartersOf(qs, y)) == multiset(QuartersOf(init, y)) + multiset{last};
      } else {
        assert QuartersOf(qs, y) == QuartersOf(init, y);
      }
    }
  }

  /** Over quarters in date order, the quarters of a year stay in date order
      and the last of them is the year's latest quarter, so the row's date is
      that of the year's last published quarter. */
  lemma {:induction false} LastQuarterIsLatest(qs: seq<Quarter>, y: int)
    requires forall i, j :: 0 <= i < j < |qs| ==> qs[i].date <= qs[j].date
    ensures var r := QuartersOf(qs, y);
      forall k :: 0 <= k < |qs| && qs[k].year == y ==> |r| > 0 && qs[k].date <= r[|r| - 1].date
  {
    if qs != [] {
      var init, last := qs[..|qs| - 1], qs[|qs| - 1];
      var r := QuartersOf(qs, y);
      if last.year == y {
        assert r == QuartersOf(init, y) + [last];
        assert r[|r| - 1] == last;
        forall k | 0 <= k < |qs| && qs[k].year == y
          ensures |r| > 0 && qs[k].date <= r[|r| - 1].date
        {
          if k < |qs| - 1 {
            assert qs[k].date <= qs[|qs| - 1].date;
          }
        }
      } else {
        assert r == QuartersOf(init, y);
        forall i, j | 0 <= i < j < |init|
          ensures init[i].date <= init[j].date
        {
          assert init[i] == qs[i] && init[j] == qs[j];
        }
        LastQuarterIsLatest(init, y);
        forall k | 0 <= k < |qs| && qs[k].year == y
          ensures |r| > 0 && qs[k].date <= r[|r| - 1].date
        {
          assert init[k] == qs[k];
        }
      }
    }
  }

  function NetIncomes(qs: seq<Quarter>): (r: seq<real>)
    ensures |r| == |qs| && forall k :: 0 <= k < |qs| ==> r[k] == qs[k].netIncome
  {
    seq(|qs|, k requires 0 <= k < |qs| => qs[k].netIncome)
  }

  function Epss(qs: seq<Quarter>): (r: seq<real>)
    ensures |r| == |qs| && forall k :: 0 <= k < |qs| ==> r[k] == qs[k].eps
  {
    seq(|qs|, k requires 0 <= k < |qs| => qs[k].eps)
  }

  function Equities(qs: seq<Quarter>): (r: seq<real>)
    ensures |r| == |qs| && forall k :: 0 <= k < |qs| ==> r[k] == qs[k].equity
  {
    seq(|qs|, k requires 0 <= k < |qs| => qs[k].equity)
  }

  /** Year-to-date value scaled to a full year: x 4 / (quarters published). */
  function Annualise(raw: real, qCount: nat): real
    requires qCount > 0
  {
    raw * (4.0 / qCount as real)
  }

  /** The equity points averaged for ROE: the previous year's last equity,
      when there is a previous year, then this year's equities; [0] when the
      table has no equity column. */
  function EquityPoints(prev: Option<real>, current: seq<Quarter>, cols: Columns): seq<real>
  {
    var prefix := if prev.Some? then [prev.value] else [];
    prefix + (if cols.hasEquity then Equities(current) else [0.0])
  }

  /** ROE: annualised net income over the mean equity, 0 when that mean
      is 0. */
  function Roe(projectedNi: real, avgEquity: real): real
  {
    if avgEquity != 0.0 then projectedNi / avgEquity else 0.0
  }

  /** The last equity of the year before years[i], if there is such a year
      and the table has an equity column. */
  function PreviousEquity(qs: seq<Quarter>, years: seq<int>, i: nat, cols: Columns): Option<real>
    requires i < |years| && forall j :: 0 <= j < |years| ==> years[j] in YearSet(qs)
  {
    if i > 0 && cols.hasEquity then
      var prev := QuartersOf(qs, years[i - 1]);
      Some(prev[|prev| - 1].equity)
    else None
  }

  /** The row for one year, from its quarters and the previous year's last
      equity. */
  function YearRow(year: int, current: seq<Quarter>, prev: Option<real>, cols: Columns): (row: AnnualRow)
    requires |current| > 0
    ensures row.year == year && row.qCount == |current| && row.date == current[|current| - 1].date
    ensures row.isProjected <==> row.qCount < 4
  {
    var q := |current|;
    var rawNi := if cols.hasNetIncome then Sum(NetIncomes(current)) else 0.0;
    var rawEps := if cols.hasEps then Sum(Epss(current)) else 0.0;
    var points := EquityPoints(prev, current, cols);
    var avgEquity := Mean(points);
    AnnualRow(year, Roe(Annualise(rawNi, q), avgEquity), Round(Annualise(rawEps, q), 2),
              current[q - 1].date, q, |points|, q < 4)
  }

  /** The row the loop appends for years[i]. */
  function RowOf(qs: seq<Quarter>, years: seq<int>, i: nat, cols: Columns): (row: AnnualRow)
    requires i < |years| && forall j :: 0 <= j < |years| ==> years[j] in YearSet(qs)
  {
    YearRow(years[i], QuartersOf(qs, years[i]), PreviousEquity(qs, years, i, cols), cols)
  }

  // ---------------------------------------------------------------- the loop

  /** The loop of `get_shareholder_return`: one row per distinct year, in
      ascending year order. */
  method ShareholderReturn(qs: seq<Quarter>, cols: Columns) returns (annual: seq<AnnualRow>)
    ensures var years := YearsOf(qs);
      && |annual| == |years|
      && forall i :: 0 <= i < |annual| ==> annual[i] == RowOf(qs, years, i, cols)
    ensures forall i, j :: 0 <= i < j < |annual| ==> annual[i].year < annual[j].year
    ensures forall y :: y in YearSet(qs) <==> exists i :: 0 <= i < |annual| && annual[i].year == y
  {
    var years := YearsOf(qs);
    assert forall j :: 0 <= j < |years| ==> years[j] in YearSet(qs) by {
      forall j | 0 <= j < |years|
        ensures years[j] in YearSet(qs)
      {
        assert years[j] in years;
      }
    }
    annual := [];
    var i := 0;
    while i < |years|
      invariant 0 <= i <= |years|
      invariant |annual| == i
      invariant forall k :: 0 <= k < i ==> annual[k] == RowOf(qs, years, k, cols)
    {
      var row := YearStep(qs, years, i, cols);
      annual := annual + [row];
      i := i + 1;
    }
    RowsFollowYears(qs, cols, annual);
  }

  /** Rows built one per year carry the years in ascending order, each year
      of the table exactly once. */
  lemma RowsFollowYears(qs: seq<Quarter>, cols: Columns, annual: seq<AnnualRow>)
    requires var years := YearsOf(qs);
      && |annual| == |years|
      && forall i :: 0 <= i < |annual| ==> annual[i] == RowOf(qs, years, i, cols)
    ensures forall i, j :: 0 <= i < j < |annual| ==> annual[i].year < annual[j].year
    ensures forall y :: y in YearSet(qs) <==> exists i :: 0 <= i < |annual| && annual[i].year == y
  {
    var years := YearsOf(qs);
    assert forall i :: 0 <= i < |annual| ==> annual[i].year == years[i];
    forall y | y in YearSet(qs)
      ensures exists i :: 0 <= i < |annual| && annual[i].year == y
    {
      var i :| 0 <= i < |years| && years[i] == y;
      assert annual[i].year == y;
    }
  }

  /** One pass of the loop: the row for years[i], computed as the source
      does, step by step. */
  method YearStep(qs: seq<Quarter>, years: seq<int>, i: nat, cols: Columns) returns (row: AnnualRow)
    requires i < |years| && forall j :: 0 <= j < |years| ==> years[j] in YearSet(qs)
    ensures row == RowOf(qs, years, i, cols)
  {
    var year := years[i];
    assert year in YearSet(qs);
    var current := QuartersOf(qs, year);
    var q := |current|;
    assert q > 0;
    // A. year-to-date sums
    var rawNi := if cols.hasNetIncome then Sum(NetIncomes(current)) else 0.0;
    var rawEps := if cols.hasEps then Sum(Epss(current)) else 0.0;
    // B. annualise: x 4 / q
    var projectedNi := Annualise(rawNi, q);
    var projectedEps := Annualise(rawEps, q);
    // C. equity points: last year's final equity, then this year's
    var currEquities := if cols.hasEquity then Equities(current) else [0.0];
    var prevEquity: Option<real> := None;
    if i > 0 && cols.hasEquity {
      var prevYear := QuartersOf(qs, years[i - 1]);
      prevEquity := Some(prevYear[|prevYear| - 1].equity);
    }
    var points: seq<real> := if prevEquity.Some? then [prevEquity.value] else [];
    points := points + currEquities;
    var avgEquity := Mean(points);
    // D. ROE
    var roe := Roe(projectedNi, avgEquity);
    row := AnnualRow(year, roe, Round(projectedEps, 2), current[q - 1].date,
                     q, |points|, q < 4);
    assert prevEquity == PreviousEquity(qs, years, i, cols);
    assert points == EquityPoints(prevEquity, current, cols);
    assert row == YearRow(year, current, prevEquity, cols);
  }

  // ---------------------------------------------------------------- properties

  /** EPS is the year-to-date sum times 4 / (quarters published), rounded
      to 2 places; a full year is taken as published. */
  lemma AnnualisationFormula(year: int, current: seq<Quarter>, prev: Option<real>, cols: Columns)
    requires |current| > 0
    ensures var rawEps := if cols.hasEps then Sum(Epss(current)) else 0.0;
      && YearRow(year, current, prev, cols).eps == Round(rawEps * 4.0 / |current| as real, 2)
      && (|current| == 4 ==> YearRow(year, current, prev, cols).eps == Round(rawEps, 2))
      && (|current| == 1 ==> YearRow(year, current, prev, cols).eps == Round(rawEps * 4.0, 2))
  {
    var rawEps := if cols.hasEps then Sum(Epss(current)) else 0.0;
    ScaleByQuarters(rawEps, |current|);
  }

  lemma ScaleByQuarters(raw: real, q: nat)
    requires q > 0
    ensures Annualise(raw, q) == raw * 4.0 / q as real
    ensures q == 4 ==> Annualise(raw, q) == raw
    ensures q == 1 ==> Annualise(raw, q) == raw * 4.0
  {
  }

  /** The count of equity points: one for the previous year's last equity
      when there is one, plus one per quarter of the year, or the single
      placeholder 0 without an equity column. */
  lemma EquityPointsCount(qs: seq<Quarter>, years: seq<int>, i: nat, cols: Columns)
    requires i < |years| && forall j :: 0 <= j < |years| ==> years[j] in YearSet(qs)
    ensures var row := RowOf(qs, years, i, cols);
      && (cols.hasEquity ==> row.avgPointsUsed == (if i > 0 then 1 else 0) + row.qCount)
      && (!cols.hasEquity ==> row.avgPointsUsed == 1)
  {
  }

  /** Without an equity column every ROE is 0. */
  lemma NoEquityNoRoe(year: int, current: seq<Quarter>, cols: Columns)
    requires |current| > 0 && !cols.hasEquity
    ensures YearRow(year, current, None, cols).roe == 0.0
  {
    var points := EquityPoints(None, current, cols);
    assert points == [0.0];
    assert Sum(points) == 0.0;
    assert YearRow(year, current, None, cols).roe == Roe(Annualise(0.0, |current|), 0.0);
  }

  /** ROE is 0 when the mean equity is 0; otherwise ROE times the mean
      equity gives back the annualised net income. */
  lemma RoeRecoversIncome(projectedNi: real, avgEquity: real)
    ensures avgEquity == 0.0 ==> Roe(projectedNi, avgEquity) == 0.0
    ensures avgEquity != 0.0 ==> Roe(projectedNi, avgEquity) * avgEquity == projectedNi
  {
  }
}

=== FILE: growth.dfy ===
/** The growth stage: from a monthly revenue series with its month-on-month
    year-over-year growth (Mon_YoY) and cumulative year-over-year growth
    (Cum_YoY) it takes 3- and 6-month rolling means and the 6-month standard
    deviation, derives trend, burst, structure and the gold ratio, buckets
    each through a first-match cascade into a score and a label, and combines
    the four scores into a composite, an action and a next-year projection. */
module Growth {
  import opened Numeric
  import opened Stats

  /** One month of the revenue table, as far as this stage reads it. */
  datatype GrowthRow = GrowthRow(monYoY: real, cumYoY: real)

  /** The rows this stage needs before it says anything. */
  const MinRows: nat := 12

  /** Mon_YoY at or above this is "high growth" and floors several scores. */
  const HighGrowth: real := 0.2

  // ---------------------------------------------------------------- trend

  datatype TrendLabel = Overheated | VeryStrong | SafeGrowth | Holding | Slowing | Danger

  /** The number each trend label opens with. */
  function TrendPoints(l: TrendLabel): int
  {
    match l
    case Overheated => 100
    case VeryStrong => 100
    case SafeGrowth => 80
    case Holding => 60
    case Slowing => 40
    case Danger => 20
  }

  function TrendLabelOf(trend: real, mon: real): TrendLabel
  {
    if trend >= 0.5 then Overheated
    else if trend >= 0.1 then VeryStrong
    else if trend >= 0.05 || mon >= HighGrowth then SafeGrowth
    else if trend >= 0.0 then Holding
    else if trend >= -0.05 then Slowing
    else Danger
  }

  function TrendScore(trend: real, mon: real): (s: int)
    ensures s in {20, 40, 60, 80, 100}
    ensures mon >= HighGrowth ==> s >= 80
    ensures s == 100 <==> trend >= 0.1
    ensures s == 20 <==> trend < -0.05 && mon < HighGrowth
  {
    if trend >= 0.1 then 100
    else if mon >= HighGrowth || trend >= 0.05 then 80
    else if trend >= 0.0 then 60
    else if trend >= -0.05 then 40
    else 20
  }

  /** The label's number is always the score, the extra overheated branch
      included. */
  lemma TrendLabelMatchesScore(trend: real, mon: real)
    ensures TrendPoints(TrendLabelOf(trend, mon)) == TrendScore(trend, mon)
  {
  }

  lemma TrendScoreMonotone(t1: real, t2: real, mon: real)
    requires t1 <= t2
    ensures TrendScore(t1, mon) <= TrendScore(t2, mon)
  {
  }

  // ---------------------------------------------------------------- burst

  datatype BurstLabel = Erupting | Accelerating | Level | Cooling | Stalling

  function BurstPoints(l: BurstLabel): int
  {
    match l
    case Erupting => 100
    case Accelerating => 80
    case Level => 60
    case Cooling => 40
    case Stalling => 20
  }

  /** The label asks, besides the score's thresholds, that burst exceed half
      the 6-month deviation, and tests the latest Mon_YoY where the score tests
      the 3-month mean. */
  function BurstLabelOf(burst: real, threshold: real, mon: real): BurstLabel
  {
    if burst >= 0.05 && burst > threshold then Erupting
    else if burst >= 0.02 && burst > threshold then Accelerating
    else if mon >= 0.15 || burst >= -0.02 then Level
    else if burst >= -0.05 then Cooling
    else Stalling
  }

  function BurstScore(burst: real, avg3: real): (s: int)
    ensures s in {20, 40, 60, 80, 100}
    ensures s == 100 <==> burst >= 0.05
    ensures avg3 >= 0.15 ==> s >= 60
  {
    if burst >= 0.05 then 100
    else if burst >= 0.02 then 80
    else if avg3 >= 0.15 || burst >= -0.02 then 60
    else if burst >= -0.05 then 40
    else 20
  }

  /** Label and score agree whenever burst clears the deviation threshold and
      the latest month and the 3-month mean sit on the same side of 15%. */
  lemma BurstLabelMatchesScore(burst: real, threshold: real, mon: real, avg3: real)
    requires burst > threshold
    requires mon >= 0.15 <==> avg3 >= 0.15
    ensures BurstPoints(BurstLabelOf(burst, threshold, mon)) == BurstScore(burst, avg3)
  {
  }

  /** The label never reports more than the score when the months agree. */
  lemma BurstLabelAtMostScore(burst: real, threshold: real, mon: real, avg3: real)
    requires mon >= 0.15 <==> avg3 >= 0.15
    ensures BurstPoints(BurstLabelOf(burst, threshold, mon)) <= BurstScore(burst, avg3)
  {
  }

  lemma BurstScoreMonotone(b1: real, b2: real, avg3: real)
    requires b1 <= b2
    ensures BurstScore(b1, avg3) <= BurstScore(b2, avg3)
  {
  }

  // ---------------------------------------------------------------- structure

  /** StrongPullback is the one label of the stage without a number. */
  datatype StructLabel = StrongPullback | StructuralBurst | Improving | Normal | Bottleneck

  function StructPoints(l: StructLabel): int
  {
    match l
    case StrongPullback => 60
    case StructuralBurst => 100
    case Improving => 80
    case Normal => 60
    case Bottleneck => 40
  }

  function StructLabelOf(struct: real, mon: real): StructLabel
  {
    if struct < -0.03 && mon >= HighGrowth then StrongPullback
    else if struct >= 0.08 then StructuralBurst
    else if struct >= 0.03 then Improving
    else if struct >= -0.03 then Normal
    else Bottleneck
  }

  function StructScore(struct: real, mon: real): (s: int)
    ensures s in {40, 60, 80, 100}
    ensures mon >= HighGrowth ==> s >= 60
    ensures s == 40 <==> struct < -0.03 && mon < HighGrowth
  {
    if struct >= 0.08 then 100
    else if struct >= 0.03 then 80
    else if mon >= HighGrowth || struct >= -0.03 then 60
    else 40
  }

  /** The pullback override only ever replaces a score of 60; elsewhere the
      label's number is the score. */
  lemma StructLabelMatchesScore(struct: real, mon: real)
    ensures StructLabelOf(struct, mon) == StrongPullback ==> StructScore(struct, mon) == 60
    ensures StructPoints(StructLabelOf(struct, mon)) == StructScore(struct, mon)
  {
  }

  lemma StructScoreMonotone(s1: real, s2: real, mon: real)
    requires s1 <= s2
    ensures StructScore(s1, mon) <= StructScore(s2, mon)
  {
  }

  // ---------------------------------------------------------------- state

  datatype CycleState =
    | Converging          // trend easing while growth stays high
    | ShortTermOverheated
    | BottomTurning
    | FullAcceleration
    | MomentumPeaking
    | Consolidating

  /** The first of the six rules that fires, in the source's order. */
  function StateOf(trend: real, burst: real, struct: real, mon: real): (c: CycleState)
    ensures c == Converging <==> trend < 0.0 && mon >= HighGrowth
    ensures c == FullAcceleration ==> trend > burst > struct > 0.0
    ensures c == BottomTurning ==> trend > burst > struct && struct < 0.0
    ensures c == MomentumPeaking ==> trend < burst && trend < 0.0 && mon < HighGrowth
    ensures c == ShortTermOverheated ==> trend > 0.25 && trend > burst * 2.0
  {
    if trend < 0.0 && mon >= HighGrowth then Converging
    else if trend > 0.25 && trend > burst * 2.0 then ShortTermOverheated
    else if trend > burst && burst > struct && struct < 0.0 then BottomTurning
    else if trend > burst && burst > struct && struct > 0.0 then FullAcceleration
    else if trend < burst && trend < 0.0 then MomentumPeaking
    else Consolidating
  }

  /** A state reached by none of the five rules is consolidation. */
  lemma StateFallsThrough(trend: real, burst: real, struct: real, mon: real)
    requires !(trend < 0.0 && mon >= HighGrowth)
    requires !(trend > 0.25 && trend > burst * 2.0)
    requires !(trend > burst && burst > struct && struct != 0.0)
    requires !(trend < burst && trend < 0.0)
    ensures StateOf(trend, burst, struct, mon) == Consolidating
  {
  }

  /** Falling trend with high growth is convergence, whatever burst and
      structure are. */
  lemma ConvergingWins(trend: real, burst: real, struct: real, burst2: real, struct2: real, mon: real)
    requires trend < 0.0 && mon >= HighGrowth
    ensures StateOf(trend, burst, struct, mon) == StateOf(trend, burst2, struct2, mon) == Converging
  {
  }

  // ---------------------------------------------------------------- gold ratio

  datatype GoldLabel = Crown | Perfect | Standard | Hollow | StrongConsolidation | Scattered

  function GoldPoints(l: GoldLabel): int
  {
    match l
    case Crown => 100
    case Perfect => 80
    case Standard => 60
    case Hollow => 40
    case StrongConsolidation => 60
    case Scattered => 40
  }

  /** The risk base: the 6-month deviation, but never under 3%. */
  function RiskBase(std6: real): (b: real)
    ensures b >= 0.03 && b >= std6
    ensures std6 >= 0.03 ==> b == std6
  {
    MaxReal(std6, 0.03)
  }

  /** trend per unit of risk; the divisor is at least 0.03. */
  function GoldRatio(trend: real, std6: real): (g: real)
    ensures g > 0.0 <==> trend > 0.0
    ensures g * RiskBase(std6) == trend
  {
    trend / RiskBase(std6)
  }

  function GoldLabelOf(ratio: real, mon: real): GoldLabel
  {
    if ratio > 1.5 then Crown
    else if ratio > 1.0 then Perfect
    else if ratio > 0.5 then Standard
    else if ratio > 0.0 then Hollow
    else if mon >= HighGrowth then StrongConsolidation
    else Scattered
  }

  function StableScore(ratio: real, mon: real): (s: int)
    ensures s in {40, 60, 80, 100}
    ensures mon >= HighGrowth ==> s >= 60
    ensures s == 100 <==> ratio >= 1.5
  {
    if ratio >= 1.5 then 100
    else if ratio >= 1.0 then 80
    else if mon >= HighGrowth || ratio >= 0.5 then 60
    else 40
  }

  /** The label compares strictly and the score does not, and the label only
      falls back on high growth once the ratio is not positive; away from
      those cases the two agree. */
  lemma GoldLabelMatchesScore(ratio: real, mon: real)
    requires ratio != 1.5 && ratio != 1.0 && ratio != 0.5
    requires !(0.0 < ratio < 0.5 && mon >= HighGrowth)
    ensures GoldPoints(GoldLabelOf(ratio, mon)) == StableScore(ratio, mon)
  {
  }

  /** At a ratio of exactly 1.5 the label says 80 while the score is 100. */
  lemma GoldLabelBoundary()
    ensures GoldPoints(GoldLabelOf(1.5, 0.0)) == 80 && StableScore(1.5, 0.0) == 100
  {
  }

  lemma StableScoreMonotone(r1: real, r2: real, mon: real)
    requires r1 <= r2
    ensures StableScore(r1, mon) <= StableScore(r2, mon)
  {
  }

  // ---------------------------------------------------------------- composite

  /** 0.35 trend + 0.25 burst + 0.20 structure + 0.20 stability. */
  function TotalScore(t: int, b: int, s: int, st: int): real
  {
    t as real * 0.35 + b as real * 0.25 + s as real * 0.20 + st as real * 0.20
  }

  /** With every sub-score in its range the composite lies in [28, 100]. */
  lemma TotalScoreBounds(t: int, b: int, s: int, st: int)
    requires t in {20, 40, 60, 80, 100} && b in {20, 40, 60, 80, 100}
    requires s in {40, 60, 80, 100} && st in {40, 60, 80, 100}
    ensures 28.0 <= TotalScore(t, b, s, st) <= 100.0
  {
  }

  lemma TotalScoreMonotone(t: int, b: int, s: int, st: int, t2: int, b2: int, s2: int, st2: int)
    requires t <= t2 && b <= b2 && s <= s2 && st <= st2
    ensures TotalScore(t, b, s, st) <= TotalScore(t2, b2, s2, st2)
  {
  }

  datatype GrowthAction = FullSpeed | SelectGrowth | TurnaroundConfirmed | Consolidation | WeakWarning | Decline

  /** Actions from best to worst. */
  function ActionRank(a: GrowthAction): int
  {
    match a
    case FullSpeed => 5
    case SelectGrowth => 4
    case TurnaroundConfirmed => 3
    case Consolidation => 2
    case WeakWarning => 1
    case Decline => 0
  }

  function ActionOf(total: real): (a: GrowthAction)
    ensures a == FullSpeed <==> total >= 90.0
    ensures a == Decline <==> total < 30.0
  {
    if total >= 90.0 then FullSpeed
    else if total >= 80.0 then SelectGrowth
    else if total >= 70.0 then TurnaroundConfirmed
    else if total >= 50.0 then Consolidation
    else if total >= 30.0 then WeakWarning
    else Decline
  }

  /** A higher composite never earns a worse action. */
  lemma ActionMonotone(t1: real, t2: real)
    requires t1 <= t2
    ensures ActionRank(ActionOf(t1)) <= ActionRank(ActionOf(t2))
  {
  }

  /** 1.1 x (0.4 Cum_YoY + 0.4 3M_Avg + 0.2 trend). */
  function NextGrowth(cum: real, avg3: real, trend: real): real
  {
    (cum * 0.4 + avg3 * 0.4 + trend * 0.2) * 1.1
  }

  /** When the three inputs agree on g the projection is 1.1 g, and it keeps
      their common sign. */
  lemma NextGrowthProperties(cum: real, avg3: real, trend: real)
    ensures cum == avg3 == trend ==> NextGrowth(cum, avg3, trend) == 1.1 * cum
    ensures cum >= 0.0 && avg3 >= 0.0 && trend >= 0.0 ==> NextGrowth(cum, avg3, trend) >= 0.0
    ensures cum <= 0.0 && avg3 <= 0.0 && trend <= 0.0 ==> NextGrowth(cum, avg3, trend) <= 0.0
  {
  }

  // ---------------------------------------------------------------- rolling windows

  function MonSeries(rows: seq<GrowthRow>): (m: seq<real>)
    ensures |m| == |rows| && forall k :: 0 <= k < |rows| ==> m[k] == rows[k].monYoY
  {
    seq(|rows|, k requires 0 <= k < |rows| => rows[k].monYoY)
  }

  /** `rolling(n).mean().round(3)` at the last row. */
  function RollingMean(m: seq<real>, n: nat): (r: real)
    requires 0 < n <= |m|
    ensures Min(Tail(m, n)) - 0.0005 <= r <= Max(Tail(m, n)) + 0.0005
  {
    MeanBounds(Tail(m, n));
    Round(Mean(Tail(m, n)), 3)
  }

  /** `rolling(6).std().round(3)` at the last row: six values, so it is
      always defined and never negative. */
  function RollingStd(m: seq<real>): (r: real)
    requires 6 <= |m|
    ensures r >= 0.0
  {
    RoundSign(SampleStd(Tail(m, 6)).value, 3);
    Round(SampleStd(Tail(m, 6)).value, 3)
  }

  // ---------------------------------------------------------------- the stage

  datatype GrowthResult = GrowthResult(
    latestMonYoY: real,
    monGrowth: Option<real>,       // percent change of Mon_YoY; None where it divides by 0
    avg3: real,
    avg6: real,
    std6: real,
    trend: real,
    trendLabel: TrendLabel,
    trendScore: int,
    burst: real,
    burstLabel: BurstLabel,
    burstScore: int,
    struct: real,
    structLabel: StructLabel,
    structScore: int,
    state: CycleState,
    gold: GoldLabel,
    stableScore: int,
    totalScore: real,
    action: GrowthAction,
    nextGrowth: real)

  /** The stage itself: None for fewer than twelve rows, otherwise the
      diagnosis of the last row from the rolling statistics of Mon_YoY. */
  function AnalyzeGrowth(rows: seq<GrowthRow>): (r: Option<GrowthResult>)
    ensures r.None? <==> |rows| < MinRows
    ensures r.Some? ==> var m := MonSeries(rows); var last := rows[|rows| - 1];
      r.value == Diagnose(last.monYoY, rows[|rows| - 2].monYoY, last.cumYoY,
                          RollingMean(m, 3), RollingMean(m, 6), RollingStd(m))
    ensures r.Some? ==> var g := r.value; var last := rows[|rows| - 1];
      && g.std6 >= 0.0
      && g.trendScore in {20, 40, 60, 80, 100} && g.burstScore in {20, 40, 60, 80, 100}
      && g.structScore in {40, 60, 80, 100} && g.stableScore in {40, 60, 80, 100}
      && (last.monYoY >= HighGrowth ==> g.trendScore >= 80 && g.structScore >= 60 && g.stableScore >= 60)
      && TrendPoints(g.trendLabel) == g.trendScore
      && 28.0 <= g.totalScore <= 100.0
      && (g.action == FullSpeed <==> g.totalScore >= 90.0)
      && (g.monGrowth.Some? <==> rows[|rows| - 2].monYoY != 0.0)
  {
    if |rows| < MinRows then None
    else
      var m := MonSeries(rows);
      var last := rows[|rows| - 1];
      var g := Diagnose(last.monYoY, rows[|rows| - 2].monYoY, last.cumYoY,
                        RollingMean(m, 3), RollingMean(m, 6), RollingStd(m));
      TrendLabelMatchesScore(g.trend, last.monYoY);
      TotalScoreBounds(g.trendScore, g.burstScore, g.structScore, g.stableScore);
      Some(g)
  }

  /** The diagnosis from the latest and previous Mon_YoY, the latest Cum_YoY
      and the rolling statistics: the three differences, and every score,
      label, state, action and the projection as the functions above give
      them. */
  function Diagnose(mon: real, prevMon: real, cum: real, avg3: real, avg6: real, std6: real): (g: GrowthResult)
    ensures g.latestMonYoY == mon && g.avg3 == avg3 && g.avg6 == avg6 && g.std6 == std6
    ensures g.trend == mon - avg6 && g.burst == avg3 - avg6 && g.struct == avg6 - cum
    ensures g.monGrowth == PercentChange(mon, prevMon)
    ensures g.trendScore == TrendScore(g.trend, mon) && g.trendLabel == TrendLabelOf(g.trend, mon)
    ensures g.burstScore == BurstScore(g.burst, avg3) && g.burstLabel == BurstLabelOf(g.burst, std6 / 2.0, mon)
    ensures g.structScore == StructScore(g.struct, mon) && g.structLabel == StructLabelOf(g.struct, mon)
    ensures g.stableScore == StableScore(GoldRatio(g.trend, std6), mon)
    ensures g.gold == GoldLabelOf(GoldRatio(g.trend, std6), mon)
    ensures g.state == StateOf(g.trend, g.burst, g.struct, mon)
    ensures g.totalScore == TotalScore(g.trendScore, g.burstScore, g.structScore, g.stableScore)
    ensures g.action == ActionOf(g.totalScore)
    ensures g.nextGrowth == NextGrowth(cum, avg3, g.trend)
  {
    var trend := mon - avg6;
    var burst := avg3 - avg6;
    var struct := avg6 - cum;
    var ratio := GoldRatio(trend, std6);
    var ts := TrendScore(trend, mon);
    var bs := BurstScore(burst, avg3);
    var ss := StructScore(struct, mon);
    var st := StableScore(ratio, mon);
    var total := TotalScore(ts, bs, ss, st);
    GrowthResult(
      mon, PercentChange(mon, prevMon),
      avg3, avg6, std6,
      trend, TrendLabelOf(trend, mon), ts,
      burst, BurstLabelOf(burst, std6 / 2.0, mon), bs,
      struct, StructLabelOf(struct, mon), ss,
      StateOf(trend, burst, struct, mon),
      GoldLabelOf(ratio, mon), st,
      total, ActionOf(total),
      NextGrowth(cum, avg3, trend))
  }
}

=== FILE: numeric.dfy ===
/** Real-number helpers shared by the four analyzer stages: the optional value
    that stands for pandas' NaN/inf, Python/NumPy rounding, integer powers,
    square and cube roots, and the unguarded percent change. */
module Numeric {

  /** `None` stands for a value the source leaves undefined (NaN or inf). */
  datatype Option<T> = None | Some(value: T)

  function MaxReal(a: real, b: real): (r: real)
    ensures r >= a && r >= b && (r == a || r == b)
  {
    if a >= b then a else b
  }

  function MinReal(a: real, b: real): (r: real)
    ensures r <= a && r <= b && (r == a || r == b)
  {
    if a <= b then a else b
  }

  /** x ** n for a whole exponent, as Python computes `(1 + g) ** 10`. */
  function Power(x: real, n: nat): real
  {
    if n == 0 then 1.0 else x * Power(x, n - 1)
  }

  lemma {:induction false} PowerPositive(x: real, n: nat)
    requires x > 0.0
    ensures Power(x, n) > 0.0
  {
    if n > 0 {
      PowerPositive(x, n - 1);
      MulPositive(x, Power(x, n - 1));
    }
  }

  lemma {:induction false} PowerAtLeastOne(x: real, n: nat)
    requires x >= 1.0
    ensures Power(x, n) >= 1.0
  {
    if n > 0 {
      PowerAtLeastOne(x, n - 1);
      MulAtLeastOne(x, Power(x, n - 1));
    }
  }

  lemma MulPositive(a: real, b: real)
    requires a > 0.0 && b > 0.0
    ensures a * b > 0.0
  {
  }

  lemma MulAtLeastOne(a: real, b: real)
    requires a >= 1.0 && b >= 1.0
    ensures a * b >= 1.0
  {
    assert a * b - 1.0 == (a - 1.0) * b + (b - 1.0);
    assert (a - 1.0) * b >= 0.0;
  }

  /** The integer nearest to y; a tie goes to the even neighbour (banker's
      rounding, as Python's round and NumPy's round do). */
  function RoundHalfEven(y: real): (n: int)
    ensures y - 0.5 <= n as real <= y + 0.5
    ensures n == y.Floor || n == y.Floor + 1
  {
    var f := y.Floor;
    var frac := y - f as real;
    if frac > 0.5 then f + 1
    else if frac < 0.5 then f
    else if f % 2 == 0 then f else f + 1
  }

  lemma RoundHalfEvenMonotone(y: real, z: real)
    requires y <= z
    ensures RoundHalfEven(y) <= RoundHalfEven(z)
  {
    if y.Floor < z.Floor {
      assert RoundHalfEven(y) <= y.Floor + 1 <= z.Floor <= RoundHalfEven(z);
    } else {
      var f := y.Floor;
      assert y - f as real <= z - f as real;
    }
  }

  /** The numbers of decimal places the stages round to. */
  type Digits = d: nat | 2 <= d <= 4 witness 2

  function Scale(d: Digits): (s: real)
    ensures s >= 100.0
  {
    if d == 2 then 100.0 else if d == 3 then 1000.0 else 10000.0
  }

  /** `round(x, d)`: x rounded half-to-even to d decimal places. The result is
      within half a unit of the last kept place from x. */
  function Round(x: real, d: Digits): (r: real)
    ensures x - 0.5 / Scale(d) <= r <= x + 0.5 / Scale(d)
  {
    if d == 2 then RoundHalfEven(x * 100.0) as real / 100.0
    else if d == 3 then RoundHalfEven(x * 1000.0) as real / 1000.0
    else RoundHalfEven(x * 10000.0) as real / 10000.0
  }

  lemma RoundMonotone(x: real, y: real, d: Digits)
    requires x <= y
    ensures Round(x, d) <= Round(y, d)
  {
    RoundHalfEvenMonotone(x * Scale(d), y * Scale(d));
  }

  lemma RoundZero(d: Digits)
    ensures Round(0.0, d) == 0.0
  {
  }

  /** Rounding never flips a sign and keeps zero at zero. */
  lemma RoundSign(c: real, d: Digits)
    ensures c >= 0.0 ==> Round(c, d) >= 0.0
    ensures c <= 0.0 ==> Round(c, d) <= 0.0
  {
    RoundZero(d);
    if c >= 0.0 { RoundMonotone(0.0, c, d); }
    if c <= 0.0 { RoundMonotone(c, 0.0, d); }
  }

  /** An interval [lo, hi] known to hold a root. */
  datatype Bracket = Bracket(lo: real, hi: real)

  function Square(x: real): real { x * x }

  function Cube(x: real): real { x * x * x }

  lemma MulMonotone(x: real, y: real, s: real)
    requires x <= y && s >= 0.0
    ensures x * s <= y * s
  {
    assert y * s - x * s == (y - x) * s;
  }

  lemma SquareMonotone(x: real, y: real)
    requires 0.0 <= x <= y
    ensures Square(x) <= Square(y)
  {
    MulMonotone(x, y, x);
    MulMonotone(x, y, y);
  }

  lemma CubeMonotone(x: real, y: real)
    requires 0.0 <= x <= y
    ensures Cube(x) <= Cube(y)
  {
    SquareMonotone(x, y);
    MulMonotone(x * x, y * y, x);
    MulMonotone(x, y, y * y);
  }

  /** w halved `steps` times, that is w / 2^steps. */
  function Halved(w: real, steps: nat): real
    decreases steps
  {
    if steps == 0 then w else Halved(w / 2.0, steps - 1)
  }

  /** Bisection for the square root of x: `steps` halvings of [lo, hi],
      each keeping the half whose ends square around x. */
  function SqrtSearch(x: real, lo: real, hi: real, steps: nat): (b: Bracket)
    requires 0.0 <= lo <= hi && Square(lo) <= x <= Square(hi)
    ensures lo <= b.lo <= b.hi <= hi && Square(b.lo) <= x <= Square(b.hi)
    ensures b.hi - b.lo == Halved(hi - lo, steps)
    decreases steps
  {
    if steps == 0 then Bracket(lo, hi)
    else
      var mid := (lo + hi) / 2.0;
      var b := if Square(mid) <= x then SqrtSearch(x, mid, hi, steps - 1)
               else SqrtSearch(x, lo, mid, steps - 1);
      assert hi - mid == mid - lo == (hi - lo) / 2.0;
      b
  }

  /** Number of halvings the roots below perform. */
  const RootSteps: nat := 64

  /** The square root pandas' standard deviation takes: the lower end of a
      bracket of width max(1, x) / 2^64 around the true root. At 0 the
      bisection would keep its lower end 0 throughout; that case is written
      out. */
  function Sqrt(x: real): (r: real)
    requires x >= 0.0
    ensures r >= 0.0 && Square(r) <= x
    ensures x <= Square(r + Halved(MaxReal(1.0, x), RootSteps))
    ensures x == 0.0 ==> r == 0.0
  {
    if x == 0.0 then 0.0
    else
      var hi := MaxReal(1.0, x);
      assert x <= Square(hi) by {
        if x > 1.0 { MulMonotone(1.0, x, x); }
      }
      var b := SqrtSearch(x, 0.0, hi, RootSteps);
      b.lo
  }

  /** Bisection for the cube root of x, as SqrtSearch. */
  function CubeRootSearch(x: real, lo: real, hi: real, steps: nat): (b: Bracket)
    requires 0.0 <= lo <= hi && Cube(lo) <= x <= Cube(hi)
    ensures lo <= b.lo <= b.hi <= hi && Cube(b.lo) <= x <= Cube(b.hi)
    ensures b.hi - b.lo == Halved(hi - lo, steps)
    decreases steps
  {
    if steps == 0 then Bracket(lo, hi)
    else
      var mid := (lo + hi) / 2.0;
      var b := if Cube(mid) <= x then CubeRootSearch(x, mid, hi, steps - 1)
               else CubeRootSearch(x, lo, mid, steps - 1);
      assert hi - mid == mid - lo == (hi - lo) / 2.0;
      b
  }

  /** `x ** (1/3)` for x > 0: the upper end of a bracket of width
      max(1, x) / 2^64 around the true root. It lies on the same side of 1
      as x, so a ratio of exactly 1 has root exactly 1. */
  function CubeRoot(x: real): (r: real)
    requires x > 0.0
    ensures r > 0.0 && Cube(r) >= x
    ensures var l := r - Halved(MaxReal(1.0, x), RootSteps); l >= 0.0 && Cube(l) <= x
    ensures x <= 1.0 ==> r <= 1.0
    ensures x >= 1.0 ==> r >= 1.0
  {
    var hi := MaxReal(1.0, x);
    assert x <= Cube(hi) by {
      if x > 1.0 {
        MulMonotone(1.0, x, x);
        MulMonotone(1.0, x * x, x);
      }
    }
    var b := CubeRootSearch(x, 0.0, hi, RootSteps);
    assert b.hi > 0.0 by {
      if b.hi == 0.0 { assert Cube(b.hi) == 0.0; }
    }
    assert x >= 1.0 ==> b.hi >= 1.0 by {
      if x >= 1.0 && b.hi < 1.0 {
        CubeMonotone(b.hi, 1.0);
      }
    }
    assert 0.0 <= b.lo <= b.hi && Cube(b.lo) <= x && b.hi - b.lo == Halved(MaxReal(1.0, x), RootSteps);
    b.hi
  }

  /** `round((cur - prev) / abs(prev) * 100, 2)`, the period-over-period
      percent change the stages report without guarding the divisor; a zero
      divisor gives inf or NaN in the source, `None` here. */
  function PercentChange(cur: real, prev: real): (r: Option<real>)
    ensures r.Some? <==> prev != 0.0
    ensures r.Some? && cur >= prev ==> r.value >= 0.0
    ensures r.Some? && cur <= prev ==> r.value <= 0.0
    ensures r.Some? && cur == prev ==> r.value == 0.0
  {
    if prev == 0.0 then None
    else
      var a := if prev < 0.0 then -prev else prev;
      var c := (cur - prev) / a * 100.0;
      assert cur >= prev ==> c >= 0.0;
      assert cur <= prev ==> c <= 0.0;
      RoundSign(c, 2);
      Some(Round(c, 2))
  }
}

=== FILE: profit.dfy ===
/** The profit stage: from quarterly gross margin (GPM) and operating margin
    (OPM) it takes the latest values, their quarter-on-quarter change, the
    4-quarter means and the least-squares slope over the quarter index, places
    the stock in two four-quadrant matrices and scores OPM level and OPM
    improvement, with slope bonuses, into a total and an action. */
module Profit {
  import opened Numeric
  import opened Sorting
  import opened Stats

  // ---------------------------------------------------------------- slope

  /** 0 + 1 + ... + (n - 1): the sum of the regression's x values. */
  function IndexTotal(n: nat): int
  {
    if n == 0 then 0 else IndexTotal(n - 1) + (n - 1)
  }

  /** 0^2 + 1^2 + ... + (n - 1)^2. */
  function SquareTotal(n: nat): int
  {
    if n == 0 then 0 else SquareTotal(n - 1) + (n - 1) * (n - 1)
  }

  /** The sum of i * y[i] over the positions of y. */
  function IndexSum(y: seq<real>): real
  {
    if y == [] then 0.0 else IndexSum(y[..|y| - 1]) + (|y| - 1) as real * y[|y| - 1]
  }

  lemma {:induction false} IndexTotalClosed(n: nat)
    ensures 2 * IndexTotal(n) == n * (n - 1)
  {
    if n > 0 {
      IndexTotalClosed(n - 1);
    }
  }

  lemma {:induction false} SquareTotalClosed(n: nat)
    ensures 6 * SquareTotal(n) == (n - 1) * n * (2 * n - 1)
  {
    if n > 0 {
      SquareTotalClosed(n - 1);
      assert (n - 2) * (n - 1) * (2 * n - 3) + 6 * (n - 1) * (n - 1)
          == (n - 1) * ((n - 2) * (2 * n - 3) + 6 * (n - 1));
      assert (n - 2) * (2 * n - 3) + 6 * (n - 1) == n * (2 * n - 1);
    }
  }

  /** The normal equations' determinant n Sxx - Sx^2 for x = 0 .. n - 1; it
      equals n^2 (n^2 - 1) / 12, so it is positive from two points on. */
  function SlopeDenominator(n: nat): (d: int)
    requires n >= 2
    ensures d > 0
  {
    IndexTotalClosed(n);
    SquareTotalClosed(n);
    var d := n * SquareTotal(n) - IndexTotal(n) * IndexTotal(n);
    assert 12 * d == 2 * n * (6 * SquareTotal(n)) - 3 * (2 * IndexTotal(n)) * (2 * IndexTotal(n));
    assert 12 * d == n * n * ((n - 1) * (n + 1)) by {
      assert 2 * n * ((n - 1) * n * (2 * n - 1)) - 3 * (n * (n - 1)) * (n * (n - 1))
          == n * n * (n - 1) * (2 * (2 * n - 1) - 3 * (n - 1));
    }
    assert (n - 1) * (n + 1) > 0;
    assert n * n > 0;
    d
  }

  /** The least-squares slope from the sums Sxy and Sy of n points at
      x = 0 .. n - 1, by the normal equations:
      (n Sxy - Sx Sy) / (n Sxx - Sx^2). */
  function SlopeFromSums(sxy: real, sy: real, n: nat): real
    requires n >= 2
  {
    ((n as real) * sxy - IndexTotal(n) as real * sy) / SlopeDenominator(n) as real
  }

  /** `np.polyfit(x, y, 1)`'s slope for x = 0 .. n - 1. */
  function OlsSlope(y: seq<real>): real
    requires |y| >= 2
  {
    SlopeFromSums(IndexSum(y), Sum(y), |y|)
  }

  /** Twice the centred cross sum, 2 Sxy - (n - 1) Sy: the slope's numerator
      is n / 2 times it. */
  function CentredFromSums(sxy: real, sy: real, n: nat): real
  {
    2.0 * sxy - (n as real - 1.0) * sy
  }

  function Centred(y: seq<real>): real
  {
    CentredFromSums(IndexSum(y), Sum(y), |y|)
  }

  lemma SlopeSignFromSums(sxy: real, sy: real, n: nat)
    requires n >= 2
    ensures SlopeFromSums(sxy, sy, n) > 0.0 <==> CentredFromSums(sxy, sy, n) > 0.0
    ensures SlopeFromSums(sxy, sy, n) == 0.0 <==> CentredFromSums(sxy, sy, n) == 0.0
  {
    IndexTotalClosed(n);
    assert 2.0 * IndexTotal(n) as real == (n as real) * ((n - 1) as real);
    var c := CentredFromSums(sxy, sy, n);
    assert (n as real) * sxy - IndexTotal(n) as real * sy == (n as real / 2.0) * c;
    SignOfQuotient(c, n as real / 2.0, SlopeDenominator(n) as real);
  }

  /** The slope has the sign of the centred cross sum. */
  lemma SlopeSign(y: seq<real>)
    requires |y| >= 2
    ensures OlsSlope(y) > 0.0 <==> Centred(y) > 0.0
    ensures OlsSlope(y) == 0.0 <==> Centred(y) == 0.0
  {
    SlopeSignFromSums(IndexSum(y), Sum(y), |y|);
  }

  lemma SignOfQuotient(c: real, k: real, d: real)
    requires k > 0.0 && d > 0.0
    ensures (k * c) / d > 0.0 <==> c > 0.0
    ensures (k * c) / d == 0.0 <==> c == 0.0
  {
    if c > 0.0 {
      MulPositive(k, c);
    } else if c < 0.0 {
      MulPositive(k, -c);
    }
  }

  lemma {:induction false} IndexSumConstant(y: seq<real>, c: real)
    requires Constant(y, c)
    ensures IndexSum(y) == IndexTotal(|y|) as real * c
  {
    if y != [] {
      IndexSumConstant(y[..|y| - 1], c);
      assert IndexTotal(|y| - 1) as real * c + (|y| - 1) as real * c
          == (IndexTotal(|y| - 1) + (|y| - 1)) as real * c;
    }
  }

  /** A flat series has slope exactly 0. */
  lemma ConstantSlope(y: seq<real>, c: real)
    requires |y| >= 2 && Constant(y, c)
    ensures OlsSlope(y) == 0.0
  {
    IndexSumConstant(y, c);
    SumConstant(y, c);
    IndexTotalClosed(|y|);
    SlopeSign(y);
  }

  /** Appending z at position n moves the centred cross sum by
      n z - Sum(y); here y is w without its last entry z. */
  lemma CentredLast(w: seq<real>)
    requires |w| > 0
    ensures var y, z := w[..|w| - 1], w[|w| - 1];
      Centred(w) == Centred(y) - Sum(y) + |y| as real * z
  {
    var y, z := w[..|w| - 1], w[|w| - 1];
    assert (|w| - 1) as real == |y| as real;
    CentredStep(IndexSum(y), Sum(y), |y|, z);
  }

  lemma CentredStep(sxy: real, sy: real, n: nat, z: real)
    ensures CentredFromSums(sxy + n as real * z, sy + z, n + 1)
         == CentredFromSums(sxy, sy, n) - sy + n as real * z
  {
  }

  /** Entries all below z sum to less than n z. */
  lemma {:induction false} SumBelow(s: seq<real>, z: real)
    requires |s| > 0 && forall k :: 0 <= k < |s| ==> s[k] < z
    ensures Sum(s) < |s| as real * z
  {
    if |s| > 1 {
      SumBelow(s[..|s| - 1], z);
    }
  }

  ghost predicate NonDecreasing(y: seq<real>)
  {
    forall i, j :: 0 <= i < j < |y| ==> y[i] <= y[j]
  }

  ghost predicate StrictlyIncreasing(y: seq<real>)
  {
    forall i, j :: 0 <= i < j < |y| ==> y[i] < y[j]
  }

  /** Entries all at most z sum to at most n z. */
  lemma {:induction false} SumAtMost(s: seq<real>, z: real)
    requires forall k :: 0 <= k < |s| ==> s[k] <= z
    ensures Sum(s) <= |s| as real * z
  {
    if s != [] {
      SumAtMost(s[..|s| - 1], z);
    }
  }

  /** Zero or one point carry no trend. */
  lemma CentredShort(y: seq<real>)
    requires |y| <= 1
    ensures Centred(y) == 0.0
  {
    if |y| == 1 {
      assert IndexSum(y) == IndexSum([]) + 0.0 * y[0];
      CentredStep(0.0, 0.0, 0, y[0]);
    }
  }

  lemma {:induction false} CentredNonDecreasing(y: seq<real>)
    requires NonDecreasing(y)
    ensures Centred(y) >= 0.0
  {
    if |y| <= 1 {
      CentredShort(y);
    } else {
      var init, z := y[..|y| - 1], y[|y| - 1];
      assert NonDecreasing(init);
      assert forall k :: 0 <= k < |init| ==> init[k] <= z;
      SumAtMost(init, z);
      CentredNonDecreasing(init);
      CentredLast(y);
    }
  }

  lemma CentredIncreasing(y: seq<real>)
    requires |y| >= 2 && StrictlyIncreasing(y)
    ensures Centred(y) > 0.0
  {
    var init, z := y[..|y| - 1], y[|y| - 1];
    assert NonDecreasing(init);
    assert forall k :: 0 <= k < |init| ==> init[k] < z;
    SumBelow(init, z);
    CentredNonDecreasing(init);
    CentredLast(y);
  }

  /** A rising series has a positive slope, a non-falling one a slope that is
      not negative. */
  lemma IncreasingSlope(y: seq<real>)
    requires |y| >= 2
    ensures NonDecreasing(y) ==> OlsSlope(y) >= 0.0
    ensures StrictlyIncreasing(y) ==> OlsSlope(y) > 0.0
  {
    SlopeSign(y);
    if NonDecreasing(y) {
      CentredNonDecreasing(y);
    }
    if StrictlyIncreasing(y) {
      CentredIncreasing(y);
    }
  }

  /** `calculate_slope`: 0 below two points, otherwise the slope rounded to
      four places. */
  function CalculateSlope(y: seq<real>): (r: real)
    ensures |y| < 2 ==> r == 0.0
  {
    if |y| < 2 then 0.0 else Round(OlsSlope(y), 4)
  }

  /** After rounding a flat series still has slope 0 and a non-falling one a
      slope that is not negative. */
  lemma CalculateSlopeProperties(y: seq<real>, c: real)
    ensures Constant(y, c) ==> CalculateSlope(y) == 0.0
    ensures NonDecreasing(y) ==> CalculateSlope(y) >= 0.0
  {
    if |y| >= 2 {
      if Constant(y, c) {
        ConstantSlope(y, c);
        RoundZero(4);
      }
      IncreasingSlope(y);
      RoundSign(OlsSlope(y), 4);
    }
  }

  // ---------------------------------------------------------------- matrices

  /** Both margins rose on the previous quarter, or not. */
  datatype MarginTrend = BothRising | Adjusting

  /** Revenue trend against OPM improvement. */
  datatype Quadrant = GoldenExpansion | HollowGrowth | EfficiencyShift | BroadDecline

  function QuadrantOf(trend: real, improvement: real): (q: Quadrant)
    ensures q == GoldenExpansion <==> trend > 0.0 && improvement > 0.0
    ensures q == HollowGrowth <==> trend > 0.0 && improvement <= 0.0
    ensures q == EfficiencyShift <==> trend <= 0.0 && improvement > 0.0
    ensures q == BroadDecline <==> trend <= 0.0 && improvement <= 0.0
  {
    if trend > 0.0 && improvement > 0.0 then GoldenExpansion
    else if trend > 0.0 && improvement <= 0.0 then HollowGrowth
    else if trend <= 0.0 && improvement > 0.0 then EfficiencyShift
    else BroadDecline
  }

  /** OPM slope against the latest OPM's place relative to its 4-quarter
      mean. */
  datatype Reversal = StrongExpansion | StructuralTurn | Fatigue | Deteriorating

  function ReversalOf(slope: real, latest: real, avg4: real): (r: Reversal)
    ensures r == StrongExpansion <==> slope > 0.0 && latest > avg4
    ensures r == StructuralTurn <==> slope < 0.0 && latest > avg4
    ensures r == Fatigue <==> slope > 0.0 && latest < avg4
  {
    if slope > 0.0 && latest > avg4 then StrongExpansion
    else if slope < 0.0 && latest > avg4 then StructuralTurn
    else if slope > 0.0 && latest < avg4 then Fatigue
    else Deteriorating
  }

  /** A flat slope or an OPM exactly at its mean is always "deteriorating". */
  lemma ReversalDegenerate(slope: real, latest: real, avg4: real)
    requires slope == 0.0 || latest == avg4
    ensures ReversalOf(slope, latest, avg4) == Deteriorating
  {
  }

  // ---------------------------------------------------------------- scores

  /** The OPM-level score; max8 is the largest OPM of the last eight
      quarters. */
  function ProfitScore(latest: real, max8: real): (s: int)
    ensures s in {40, 60, 70, 80, 90, 100}
    ensures s == 100 <==> latest >= max8 || latest >= 0.035
    ensures s == 40 <==> latest < max8 && latest < 0.027
  {
    if latest >= max8 then 100
    else if latest >= 0.035 then 100
    else if latest >= 0.033 then 90
    else if latest >= 0.031 then 80
    else if latest >= 0.029 then 70
    else if latest >= 0.027 then 60
    else 40
  }

  lemma ProfitScoreMonotone(l1: real, l2: real, max8: real)
    requires l1 <= l2
    ensures ProfitScore(l1, max8) <= ProfitScore(l2, max8)
  {
  }

  function ImprovementScore(improvement: real): (s: int)
    ensures s in {40, 60, 80, 100}
    ensures s == 100 <==> improvement >= 0.005
    ensures s == 40 <==> improvement < -0.001
  {
    if improvement >= 0.005 then 100
    else if improvement >= 0.001 then 80
    else if improvement >= -0.001 then 60
    else 40
  }

  lemma ImprovementScoreMonotone(i1: real, i2: real)
    requires i1 <= i2
    ensures ImprovementScore(i1) <= ImprovementScore(i2)
  {
  }

  /** 0.6 level + 0.4 improvement, 5 more for a rising GPM slope, 5 less for
      an OPM slope that is not rising. */
  function ProfitTotal(p: int, i: int, slopeGpm: real, slopeOpm: real): real
  {
    var bonusGpm := if slopeGpm > 0.0 then 5.0 else 0.0;
    var bonusOpm := if slopeOpm > 0.0 then 0.0 else -5.0;
    p as real * 0.6 + i as real * 0.4 + bonusGpm + bonusOpm
  }

  lemma ProfitTotalBounds(p: int, i: int, slopeGpm: real, slopeOpm: real)
    requires p in {40, 60, 70, 80, 90, 100} && i in {40, 60, 80, 100}
    ensures 35.0 <= ProfitTotal(p, i, slopeGpm, slopeOpm) <= 105.0
    ensures ProfitTotal(p, i, slopeGpm, slopeOpm) == 105.0 <==> p == 100 && i == 100 && slopeGpm > 0.0 && slopeOpm > 0.0
  {
  }

  datatype ProfitAction = FullSprint | SelectHeavy | SteadyHold | ReduceWatch | Avoid

  function ProfitActionRank(a: ProfitAction): int
  {
    match a
    case FullSprint => 4
    case SelectHeavy => 3
    case SteadyHold => 2
    case ReduceWatch => 1
    case Avoid => 0
  }

  function ProfitActionOf(total: real): (a: ProfitAction)
    ensures a == FullSprint <==> total >= 85.0
    ensures a == Avoid <==> total < 40.0
  {
    if total >= 85.0 then FullSprint
    else if total >= 75.0 then SelectHeavy
    else if total >= 60.0 then SteadyHold
    else if total >= 40.0 then ReduceWatch
    else Avoid
  }

  lemma ProfitActionMonotone(t1: real, t2: real)
    requires t1 <= t2
    ensures ProfitActionRank(ProfitActionOf(t1)) <= ProfitActionRank(ProfitActionOf(t2))
  {
  }

  // ---------------------------------------------------------------- the stage

  /** One quarter: its date (as an ordinal) and its two margins. */
  datatype QuarterRow = QuarterRow(date: int, gpm: real, opm: real)

  const MinQuarters: nat := 4

  datatype ProfitResult = ProfitResult(
    latestGpm: real,          // rounded to 3 places
    gpmGrowth: Option<real>,  // percent change on the previous quarter
    latestOpm: real,          // rounded to 3 places
    opmGrowth: Option<real>,
    avg4Gpm: real,            // rounded to 3 places
    avg4Opm: real,            // rounded to 3 places
    slopeGpm: real,
    slopeOpm: real,
    improvement: real,        // rounded to 2 places
    marginTrend: MarginTrend,
    quadrant: Quadrant,
    reversal: Reversal,
    profitScore: int,
    improvementScore: int,
    totalScore: real,
    action: ProfitAction)

  /** The stage's answer: only a status for too little data. */
  datatype ProfitOutcome = Insufficient | Profit(result: ProfitResult)

  function DateKey(r: QuarterRow): real
  {
    r.date as real
  }

  /** `sort_values('date')`. */
  function SortByDate(rows: seq<QuarterRow>): (s: seq<QuarterRow>)
    ensures multiset(s) == multiset(rows) && |s| == |rows|
    ensures forall i, j :: 0 <= i < j < |s| ==> s[i].date <= s[j].date
  {
    var s := SortBy(rows, DateKey);
    assert forall i, j :: 0 <= i < j < |s| ==> DateKey(s[i]) <= DateKey(s[j]);
    s
  }

  function Gpms(rows: seq<QuarterRow>): (g: seq<real>)
    ensures |g| == |rows| && forall k :: 0 <= k < |rows| ==> g[k] == rows[k].gpm
  {
    seq(|rows|, k requires 0 <= k < |rows| => rows[k].gpm)
  }

  function Opms(rows: seq<QuarterRow>): (o: seq<real>)
    ensures |o| == |rows| && forall k :: 0 <= k < |rows| ==> o[k] == rows[k].opm
  {
    seq(|rows|, k requires 0 <= k < |rows| => rows[k].opm)
  }

  /** The stage on the OPM/GPM series in date order; trend is the growth
      stage's trend. */
  function ProfitOfSeries(gpm: seq<real>, opm: seq<real>, trend: real): (p: ProfitResult)
    requires |gpm| == |opm| >= MinQuarters
    ensures p.profitScore in {40, 60, 70, 80, 90, 100} && p.improvementScore in {40, 60, 80, 100}
    ensures 35.0 <= p.totalScore <= 105.0
    ensures p.profitScore == 100 <==> opm[|opm| - 1] >= Max(Tail(opm, Window8(|opm|))) || opm[|opm| - 1] >= 0.035
    ensures var improvement := opm[|opm| - 1] - Mean(Tail(opm, 4));
      && (p.quadrant == GoldenExpansion <==> trend > 0.0 && improvement > 0.0)
      && p.improvementScore == ImprovementScore(improvement)
    ensures p.marginTrend == BothRising <==> gpm[|gpm| - 1] > gpm[|gpm| - 2] && opm[|opm| - 1] > opm[|opm| - 2]
    ensures p.slopeOpm == CalculateSlope(opm) && p.slopeGpm == CalculateSlope(gpm)
    ensures var n := |opm|; var avg4 := Mean(Tail(opm, 4));
      && p.latestOpm == Round(opm[n - 1], 3) && p.avg4Opm == Round(avg4, 3)
      && p.latestGpm == Round(gpm[n - 1], 3) && p.avg4Gpm == Round(Mean(Tail(gpm, 4)), 3)
      && p.opmGrowth == PercentChange(opm[n - 1], opm[n - 2]) && p.gpmGrowth == PercentChange(gpm[n - 1], gpm[n - 2])
      && p.improvement == Round(opm[n - 1] - avg4, 2)
      && p.quadrant == QuadrantOf(trend, opm[n - 1] - avg4)
      && p.reversal == ReversalOf(p.slopeOpm, opm[n - 1], avg4)
      && p.profitScore == ProfitScore(opm[n - 1], Max(Tail(opm, Window8(n))))
      && p.totalScore == ProfitTotal(p.profitScore, p.improvementScore, p.slopeGpm, p.slopeOpm)
      && p.action == ProfitActionOf(p.totalScore)
  {
    var n := |opm|;
    var latestOpm, latestGpm := opm[n - 1], gpm[n - 1];
    var avg4Gpm := Mean(Tail(gpm, 4));
    var avg4Opm := Mean(Tail(opm, 4));
    var slopeGpm := CalculateSlope(gpm);
    var slopeOpm := CalculateSlope(opm);
    var improvement := latestOpm - avg4Opm;
    var marginTrend := if latestGpm > gpm[n - 2] && latestOpm > opm[n - 2] then BothRising else Adjusting;
    var max8 := Max(Tail(opm, Window8(n)));
    var ps := ProfitScore(latestOpm, max8);
    var iscore := ImprovementScore(improvement);
    var total := ProfitTotal(ps, iscore, slopeGpm, slopeOpm);
    ProfitTotalBounds(ps, iscore, slopeGpm, slopeOpm);
    ProfitResult(
      Round(latestGpm, 3), PercentChange(latestGpm, gpm[n - 2]),
      Round(latestOpm, 3), PercentChange(latestOpm, opm[n - 2]),
      Round(avg4Gpm, 3), Round(avg4Opm, 3),
      slopeGpm, slopeOpm,
      Round(improvement, 2),
      marginTrend,
      QuadrantOf(trend, improvement),
      ReversalOf(slopeOpm, latestOpm, avg4Opm),
      ps, iscore, total, ProfitActionOf(total))
  }

  /** `tail(8)` takes at most eight rows. */
  function Window8(n: nat): (k: nat)
    requires n > 0
    ensures 0 < k <= n && k <= 8 && (n >= 8 ==> k == 8) && (n < 8 ==> k == n)
  {
    if n < 8 then n else 8
  }

  /** The latest OPM being the largest of the last eight quarters always
      scores 100. */
  lemma PeakOpmScores100(opm: seq<real>, gpm: seq<real>, trend: real)
    requires |gpm| == |opm| >= MinQuarters
    requires forall k :: |opm| - Window8(|opm|) <= k < |opm| ==> opm[k] <= opm[|opm| - 1]
    ensures ProfitOfSeries(gpm, opm, trend).profitScore == 100
  {
    var t := Tail(opm, Window8(|opm|));
    MaxAtMost(t, opm[|opm| - 1]);
  }

  /** `analyze_profit_stage`: a status only for fewer than four quarters,
      otherwise the analysis of the quarters in date order. */
  function AnalyzeProfit(rows: seq<QuarterRow>, trend: real): (r: ProfitOutcome)
    ensures r.Insufficient? <==> |rows| < MinQuarters
    ensures r.Profit? ==> r.result.profitScore in {40, 60, 70, 80, 90, 100}
    ensures r.Profit? ==> r.result.improvementScore in {40, 60, 80, 100}
    ensures r.Profit? ==> 35.0 <= r.result.totalScore <= 105.0
    ensures r.Profit? ==> var s := SortByDate(rows); r.result == ProfitOfSeries(Gpms(s), Opms(s), trend)
  {
    if |rows| == 0 || |rows| < MinQuarters then Insufficient
    else
      var s := SortByDate(rows);
      Profit(ProfitOfSeries(Gpms(s), Opms(s), trend))
  }
}

=== FILE: revenue.dfy ===
/** Monthly revenue preparation: the raw monthly revenue rows are ordered by
    month, and each row gains its year-over-year change against the row
    twelve places earlier, the year-to-date cumulative revenue, and the
    year-over-year change of that cumulative figure. */
module Revenue {
  import opened Numeric
  import opened Stats
  import opened Sorting

  /** One raw row: revenue of one calendar month. */
  datatype RevenueRow = RevenueRow(year: int, month: int, revenue: real)

  /** One prepared row. The changes are rounded to 3 places; `None` where the
      source has NaN or inf (no row twelve places back, or a zero base). */
  datatype MonthlyRevenue = MonthlyRevenue(
    year: int,
    month: int,
    revenue: real,
    monYoY: Option<real>,
    cumRevenue: real,
    cumYoY: Option<real>)

  /** Rows the table needs: two full years. */
  const MinMonths: nat := 24

  /** Lag of the year-over-year change, in rows. */
  const Lag: nat := 12

  /** The first of the month as a sortable number. */
  function MonthKey(r: RevenueRow): real
  {
    (r.year * 12 + r.month) as real
  }

  ghost predicate ValidMonths(rows: seq<RevenueRow>)
  {
    forall k :: 0 <= k < |rows| ==> 1 <= rows[k].month <= 12
  }

  /** With months in 1..12 the month order refines the year order. */
  lemma {:induction false} KeyOrdersYears(a: RevenueRow, b: RevenueRow)
    requires 1 <= a.month <= 12 && 1 <= b.month <= 12
    requires MonthKey(a) <= MonthKey(b)
    ensures a.year <= b.year
  {
    assert a.year * 12 + 1 <= a.year * 12 + a.month <= b.year * 12 + b.month <= b.year * 12 + 12;
  }

  // ---------------------------------------------------------------- changes

  /** `pct_change` of one value on a base, rounded to 3 places. */
  function Change(current: real, base: real): (r: Option<real>)
    ensures r.Some? <==> base != 0.0
    ensures r.Some? && base > 0.0 && current >= base ==> r.value >= 0.0
    ensures r.Some? && base > 0.0 && current <= base ==> r.value <= 0.0
    ensures r.Some? && current == base ==> r.value == 0.0
  {
    if base == 0.0 then None
    else
      var c := current / base - 1.0;
      assert base > 0.0 && current >= base ==> current / base >= 1.0;
      assert base > 0.0 && current <= base ==> current / base <= 1.0;
      RoundSign(c, 3);
      RoundZero(3);
      Some(Round(c, 3))
  }

  /** `pct_change(periods=12)` at row i. */
  function LaggedChange(values: seq<real>, i: nat): (r: Option<real>)
    requires i < |values|
    ensures i < Lag ==> r.None?
    ensures i >= Lag ==> r == Change(values[i], values[i - Lag])
  {
    if i < Lag then None else Change(values[i], values[i - Lag])
  }

  /** The 12-row change is defined exactly from the 13th row on where the
      value 12 rows back is not 0, and it has the sign of the move. */
  lemma LaggedChangeProperties(values: seq<real>, i: nat)
    requires i < |values|
    ensures var r := LaggedChange(values, i);
      && (r.Some? <==> i >= Lag && values[i - Lag] != 0.0)
      && (r.Some? && values[i - Lag] > 0.0 && values[i] >= values[i - Lag] ==> r.value >= 0.0)
      && (r.Some? && values[i - Lag] > 0.0 && values[i] <= values[i - Lag] ==> r.value <= 0.0)
      && (r.Some? && values[i] == values[i - Lag] ==> r.value == 0.0)
  {
  }

  // ---------------------------------------------------------------- year to date

  /** The revenues of year y among rows, in row order. */
  function RevenuesOfYear(rows: seq<RevenueRow>, y: int): (r: seq<real>)
    ensures |r| <= |rows|
  {
    if rows == [] then []
    else
      var last := rows[|rows| - 1];
      RevenuesOfYear(rows[..|rows| - 1], y) + (if last.year == y then [last.revenue] else [])
  }

  /** `groupby('revenue_year')['revenue'].cumsum()` at row i: the revenues of
      row i's year up to and including row i. */
  function YearToDate(rows: seq<RevenueRow>, i: nat): real
    requires i < |rows|
  {
    Sum(RevenuesOfYear(rows[..i + 1], rows[i].year))
  }

  lemma {:induction false} SumAppend(s: seq<real>, x: real)
    ensures Sum(s + [x]) == Sum(s) + x
  {
    assert (s + [x])[..|s|] == s;
  }

  lemma {:induction false} NoneOfYear(rows: seq<RevenueRow>, y: int)
    requires forall k :: 0 <= k < |rows| ==> rows[k].year != y
    ensures RevenuesOfYear(rows, y) == []
    decreases |rows|
  {
    if rows != [] {
      NoneOfYear(rows[..|rows| - 1], y);
    }
  }

  /** On month-ordered rows the cumulative revenue adds each month to the
      previous month's figure within a year and restarts with the month's
      own revenue when the year changes. */
  lemma {:induction false} YearToDateSteps(rows: seq<RevenueRow>, i: nat)
    requires ValidMonths(rows) && SortedBy(rows, MonthKey)
    requires i < |rows|
    ensures i == 0 ==> YearToDate(rows, i) == rows[0].revenue
    ensures i > 0 && rows[i - 1].year == rows[i].year ==>
      YearToDate(rows, i) == YearToDate(rows, i - 1) + rows[i].revenue
    ensures i > 0 && rows[i - 1].year != rows[i].year ==> YearToDate(rows, i) == rows[i].revenue
  {
    var y := rows[i].year;
    var upTo := rows[..i + 1];
    assert upTo[..i] == rows[..i];
    assert RevenuesOfYear(upTo, y) == RevenuesOfYear(rows[..i], y) + [rows[i].revenue];
    SumAppend(RevenuesOfYear(rows[..i], y), rows[i].revenue);
    if i == 0 {
      assert rows[..0] == [];
    } else if rows[i - 1].year != y {
      KeyOrdersYears(rows[i - 1], rows[i]);
      forall k | 0 <= k < |rows[..i]|
        ensures rows[..i][k].year != y
      {
        KeyOrdersYears(rows[k], rows[i - 1]);
      }
      NoneOfYear(rows[..i], y);
      assert Sum([]) == 0.0;
    } else {
      assert rows[..i] == rows[..i - 1 + 1];
    }
  }

  // ---------------------------------------------------------------- the table

  function Revenues(rows: seq<RevenueRow>): (r: seq<real>)
    ensures |r| == |rows| && forall k :: 0 <= k < |rows| ==> r[k] == rows[k].revenue
  {
    seq(|rows|, k requires 0 <= k < |rows| => rows[k].revenue)
  }

  function CumulativeRevenues(rows: seq<RevenueRow>): (r: seq<real>)
    ensures |r| == |rows| && forall k :: 0 <= k < |rows| ==> r[k] == YearToDate(rows, k)
  {
    seq(|rows|, k requires 0 <= k < |rows| => YearToDate(rows, k))
  }

  function RawOf(m: MonthlyRevenue): RevenueRow
  {
    RevenueRow(m.year, m.month, m.revenue)
  }

  function RawRows(t: seq<MonthlyRevenue>): (r: seq<RevenueRow>)
    ensures |r| == |t| && forall k :: 0 <= k < |t| ==> r[k] == RawOf(t[k])
  {
    seq(|t|, k requires 0 <= k < |t| => RawOf(t[k]))
  }

  /** The prepared table of month-ordered rows. */
  function Prepare(sorted: seq<RevenueRow>): (t: seq<MonthlyRevenue>)
    ensures RawRows(t) == sorted
    ensures forall i :: 0 <= i < |t| ==> t[i].cumRevenue == YearToDate(sorted, i)
    ensures forall i :: 0 <= i < |t| ==> (t[i].monYoY.Some? <==> i >= Lag && t[i - Lag].revenue != 0.0)
    ensures forall i :: Lag <= i < |t| ==> t[i].monYoY == Change(t[i].revenue, t[i - Lag].revenue)
    ensures forall i :: 0 <= i < |t| ==> (t[i].cumYoY.Some? <==> i >= Lag && t[i - Lag].cumRevenue != 0.0)
    ensures forall i :: Lag <= i < |t| ==> t[i].cumYoY == Change(t[i].cumRevenue, t[i - Lag].cumRevenue)
  {
    var cum := CumulativeRevenues(sorted);
    WithChangesColumns(sorted, cum);
    WithChanges(sorted, cum)
  }

  /** The rows with their cumulative figures and both lagged changes. */
  function WithChanges(sorted: seq<RevenueRow>, cum: seq<real>): (t: seq<MonthlyRevenue>)
    requires |cum| == |sorted|
    ensures |t| == |sorted|
    ensures forall k :: 0 <= k < |t| ==> t[k] == RowAt(sorted, Revenues(sorted), cum, k)
  {
    var rev := Revenues(sorted);
    seq(|sorted|, k requires 0 <= k < |sorted| => RowAt(sorted, rev, cum, k))
  }

  /** The columns of the table with changes: the raw rows are kept, the
      cumulative column is the given one, and each 12-row change is defined
      exactly from the 13th row on where its lagged value is not 0. */
  lemma WithChangesColumns(sorted: seq<RevenueRow>, cum: seq<real>)
    requires |cum| == |sorted|
    ensures var t := WithChanges(sorted, cum);
      && RawRows(t) == sorted
      && (forall i :: 0 <= i < |t| ==> t[i].cumRevenue == cum[i])
      && (forall i :: 0 <= i < |t| ==> (t[i].monYoY.Some? <==> i >= Lag && t[i - Lag].revenue != 0.0))
      && (forall i :: Lag <= i < |t| ==> t[i].monYoY == Change(t[i].revenue, t[i - Lag].revenue))
      && (forall i :: 0 <= i < |t| ==> (t[i].cumYoY.Some? <==> i >= Lag && t[i - Lag].cumRevenue != 0.0))
      && (forall i :: Lag <= i < |t| ==> t[i].cumYoY == Change(t[i].cumRevenue, t[i - Lag].cumRevenue))
  {
    var t := WithChanges(sorted, cum);
    var rev := Revenues(sorted);
    forall k | 0 <= k < |t|
      ensures RawRows(t)[k] == sorted[k]
    {
      assert t[k] == RowAt(sorted, rev, cum, k);
    }
    forall i | 0 <= i < |t|
      ensures t[i].cumRevenue == cum[i]
      ensures t[i].monYoY.Some? <==> i >= Lag && t[i - Lag].revenue != 0.0
      ensures t[i].cumYoY.Some? <==> i >= Lag && t[i - Lag].cumRevenue != 0.0
      ensures i >= Lag ==> t[i].monYoY == Change(t[i].revenue, t[i - Lag].revenue)
      ensures i >= Lag ==> t[i].cumYoY == Change(t[i].cumRevenue, t[i - Lag].cumRevenue)
    {
      assert t[i] == RowAt(sorted, rev, cum, i);
      if i >= Lag {
        assert t[i - Lag] == RowAt(sorted, rev, cum, i - Lag);
      }
    }
  }

  /** Row k of the prepared table, with both lagged changes. */
  function RowAt(sorted: seq<RevenueRow>, rev: seq<real>, cum: seq<real>, k: nat): (m: MonthlyRevenue)
    requires |rev| == |sorted| && |cum| == |sorted| && k < |sorted|
    ensures m.year == sorted[k].year && m.month == sorted[k].month
    ensures m.revenue == rev[k] && m.cumRevenue == cum[k]
    ensures m.monYoY.Some? <==> k >= Lag && rev[k - Lag] != 0.0
    ensures m.cumYoY.Some? <==> k >= Lag && cum[k - Lag] != 0.0
    ensures k >= Lag ==> m.monYoY == Change(rev[k], rev[k - Lag])
    ensures k >= Lag ==> m.cumYoY == Change(cum[k], cum[k - Lag])
  {
    MonthlyRevenue(sorted[k].year, sorted[k].month, rev[k],
                   LaggedChange(rev, k), cum[k], LaggedChange(cum, k))
  }

  /** `get_revenue`: no table when the source has no rows or fewer than 24;
      otherwise the rows in month order with the three derived columns. The
      month of every row must be 1..12 (the date conversion fails otherwise). */
  function GetRevenue(source: Option<seq<RevenueRow>>): (t: seq<MonthlyRevenue>)
    requires source.Some? && |source.value| >= MinMonths ==> ValidMonths(source.value)
    ensures source.None? || |source.value| < MinMonths ==> t == []
    ensures source.Some? && |source.value| >= MinMonths ==>
      && |t| == |source.value|
      && multiset(RawRows(t)) == multiset(source.value)
      && SortedBy(RawRows(t), MonthKey)
      && (forall i :: 0 <= i < |t| ==> t[i].cumRevenue == YearToDate(RawRows(t), i))
      && (forall i :: 0 <= i < |t| ==> (t[i].monYoY.Some? <==> i >= Lag && t[i - Lag].revenue != 0.0))
      && (forall i :: Lag <= i < |t| ==> t[i].monYoY == Change(t[i].revenue, t[i - Lag].revenue))
      && (forall i :: 0 <= i < |t| ==> (t[i].cumYoY.Some? <==> i >= Lag && t[i - Lag].cumRevenue != 0.0))
      && (forall i :: Lag <= i < |t| ==> t[i].cumYoY == Change(t[i].cumRevenue, t[i - Lag].cumRevenue))
  {
    if source.None? || |source.value| < MinMonths then []
    else
      var sorted := SortBy(source.value, MonthKey);
      var t := Prepare(sorted);
      assert RawRows(t) == sorted;
      t
  }

  /** Sorting keeps every month in 1..12. */
  lemma SortedValid(source: seq<RevenueRow>)
    requires ValidMonths(source)
    ensures ValidMonths(SortBy(source, MonthKey))
  {
    var sorted := SortBy(source, MonthKey);
    forall k | 0 <= k < |sorted|
      ensures 1 <= sorted[k].month <= 12
    {
      PermutationElements(sorted, source, k);
    }
  }

  /** The cumulative column restarts every January of the data and otherwise
      accumulates month by month. */
  lemma CumulativeRestarts(source: seq<RevenueRow>, i: nat)
    requires |source| >= MinMonths && ValidMonths(source)
    requires 0 < i < |source|
    ensures var t := GetRevenue(Some(source));
      && (t[i - 1].year == t[i].year ==> t[i].cumRevenue == t[i - 1].cumRevenue + t[i].revenue)
      && (t[i - 1].year != t[i].year ==> t[i].cumRevenue == t[i].revenue)
  {
    var t := GetRevenue(Some(source));
    SortedValid(source);
    assert RawRows(t) == SortBy(source, MonthKey);
    YearToDateSteps(RawRows(t), i);
  }

  /** Twelve rows back is the same month a year earlier when the months run
      without gaps; the year-over-year columns rely on this. */
  lemma {:induction false} LagIsSameMonth(rows: seq<RevenueRow>, i: nat)
    requires ValidMonths(rows)
    requires forall k :: 0 < k < |rows| ==> MonthKey(rows[k]) == MonthKey(rows[k - 1]) + 1.0
    requires Lag <= i < |rows|
    ensures rows[i - Lag].year == rows[i].year - 1 && rows[i - Lag].month == rows[i].month
  {
    KeysStep(rows, i - Lag, i);
    var a, b := rows[i - Lag], rows[i];
    assert b.year * 12 + b.month == a.year * 12 + a.month + 12;
    assert (b.year - a.year) * 12 == a.month - b.month + 12;
  }

  lemma {:induction false} KeysStep(rows: seq<RevenueRow>, j: nat, i: nat)
    requires forall k :: 0 < k < |rows| ==> MonthKey(rows[k]) == MonthKey(rows[k - 1]) + 1.0
    requires j <= i < |rows|
    ensures MonthKey(rows[i]) == MonthKey(rows[j]) + (i - j) as real
    decreases i - j
  {
    if j < i {
      KeysStep(rows, j, i - 1);
    }
  }

  /** In a prepared table with no zero revenue every row from the thirteenth
      on has a monthly change, so the last twelve rows the growth stage reads
      are all defined. */
  lemma DefinedFromLag(source: seq<RevenueRow>)
    requires |source| >= MinMonths && ValidMonths(source)
    requires forall k :: 0 <= k < |source| ==> source[k].revenue != 0.0
    ensures var t := GetRevenue(Some(source));
      forall i :: Lag <= i < |t| ==> t[i].monYoY.Some?
  {
    var t := GetRevenue(Some(source));
    forall i | Lag <= i < |t|
      ensures t[i].monYoY.Some?
    {
      assert RawRows(t)[i - Lag] == RawOf(t[i - Lag]);
      PermutationElements(RawRows(t), source, i - Lag);
    }
  }
}

=== FILE: shareholder.dfy ===
/** The shareholder-return stage: scores the level and growth of ROE and the
    growth of EPS from the annual table, projects next year's EPS from the
    growth and profit stages, and combines the three stages into the master
    score and its final verdict. */
module Shareholder {
  import opened Numeric
  import opened Stats
  import opened Annual
  import opened Growth
  import opened Profit

  /** Years of history the stage reads back (`iloc[-4]`). */
  const MinYears: nat := 4

  function Roes(annual: seq<AnnualRow>): (r: seq<real>)
    ensures |r| == |annual| && forall k :: 0 <= k < |annual| ==> r[k] == annual[k].roe
  {
    seq(|annual|, k requires 0 <= k < |annual| => annual[k].roe)
  }

  /** The four-year rolling mean of ROE at the last year, rounded to 4
      places. It lies between the smallest and the largest of those ROEs,
      up to the rounding. */
  function RoeMean4(roes: seq<real>): (m: real)
    requires |roes| >= MinYears
    ensures Min(Tail(roes, 4)) - 0.00005 <= m <= Max(Tail(roes, 4)) + 0.00005
  {
    MeanBounds(Tail(roes, 4));
    Round(Mean(Tail(roes, 4)), 4)
  }

  // ---------------------------------------------------------------- EPS CAGR

  /** Three-year compound growth of EPS, `(new / old) ** (1/3) - 1`, or 0
      unless both EPS are positive. */
  function EpsCagr(newEps: real, oldEps: real): (g: real)
    ensures !(oldEps > 0.0 && newEps > 0.0) ==> g == 0.0
    ensures oldEps > 0.0 && newEps > 0.0 ==> g > -1.0
    ensures oldEps > 0.0 && newEps > 0.0 && newEps >= oldEps ==> g >= 0.0
    ensures oldEps > 0.0 && newEps > 0.0 && newEps <= oldEps ==> g <= 0.0
  {
    if oldEps > 0.0 && newEps > 0.0 then
      var ratio := newEps / oldEps;
      assert newEps >= oldEps ==> ratio >= 1.0;
      assert newEps <= oldEps ==> ratio <= 1.0;
      CubeRoot(ratio) - 1.0
    else 0.0
  }

  // ---------------------------------------------------------------- S6a: ROE level

  /** ROE level score: 100 when the latest ROE is the highest of the last four
      years, otherwise by the rounded four-year mean. */
  function RoeLevelScore(latest: real, max4: real, mean4: real): (s: int)
    ensures s in {40, 60, 80, 90, 100}
    ensures latest >= max4 ==> s == 100
    ensures s == 100 <==> latest >= max4 || mean4 >= 0.15
    ensures latest < max4 ==> (s >= 80 <==> mean4 >= 0.1)
    ensures latest < max4 ==> (s == 40 <==> mean4 < 0.08)
  {
    if latest >= max4 then 100
    else if mean4 >= 0.15 then 100
    else if mean4 >= 0.12 then 90
    else if mean4 >= 0.1 then 80
    else if mean4 >= 0.08 then 60
    else 40
  }

  lemma RoeLevelMonotone(latest: real, max4: real, m: real, m': real)
    requires m <= m'
    ensures RoeLevelScore(latest, max4, m) <= RoeLevelScore(latest, max4, m')
  {
  }

  // ---------------------------------------------------------------- S6b: ROE growth

  /** ROE growth score from the last four ROEs (r1 latest) and the last two
      EPS: rising ROE with falling EPS is distrusted (40); three rising years
      score 100; above the (unrounded) four-year mean 80; not below four years
      ago 60; otherwise 40. */
  function RoeGrowthScore(r1: real, r2: real, r3: real, r4: real, avg4: real, eps1: real, eps2: real): (s: int)
    ensures s in {40, 60, 80, 100}
    ensures r1 > r2 && eps1 < eps2 ==> s == 40
    ensures s == 100 <==> r1 > r2 > r3 > r4 && eps1 >= eps2
    ensures r1 < r4 && r1 <= avg4 ==> s == 40
    ensures r1 >= r4 && !(r1 > r2 && eps1 < eps2) ==> s >= 60
  {
    if r1 > r2 && eps1 < eps2 then 40
    else if r1 > r2 && r2 > r3 && r3 > r4 then 100
    else if r1 > avg4 then 80
    else if r1 >= r4 then 60
    else 40
  }

  // ---------------------------------------------------------------- S7: EPS growth

  /** EPS momentum score: a turnaround from loss to profit 100, a persistent
      loss 20, otherwise by the compound growth rate. */
  function EpsGrowthScore(newEps: real, oldEps: real, cagr: real): (s: int)
    ensures s in {20, 40, 60, 80, 100}
    ensures oldEps <= 0.0 ==> (s == 100 <==> newEps > 0.0)
    ensures oldEps <= 0.0 ==> (s == 20 <==> newEps <= 0.0)
    ensures oldEps > 0.0 ==> (s >= 80 <==> cagr >= 0.12)
    ensures oldEps > 0.0 ==> (s == 20 <==> cagr < 0.0)
  {
    if oldEps <= 0.0 && newEps > 0.0 then 100
    else if oldEps <= 0.0 && newEps <= 0.0 then 20
    else if cagr >= 0.2 then 100
    else if cagr >= 0.12 then 80
    else if cagr >= 0.05 then 60
    else if cagr >= 0.0 then 40
    else 20
  }

  lemma EpsGrowthMonotone(newEps: real, oldEps: real, c: real, c': real)
    requires oldEps > 0.0 && c <= c'
    ensures EpsGrowthScore(newEps, oldEps, c) <= EpsGrowthScore(newEps, oldEps, c')
  {
  }

  /** A profit that turns into a loss gets a CAGR of 0 and so scores 40, the
      same as flat EPS: the stage does not punish it below a shrinking
      profit. */
  lemma ProfitTurnedLoss(newEps: real, oldEps: real)
    requires oldEps > 0.0 && newEps <= 0.0
    ensures EpsGrowthScore(newEps, oldEps, EpsCagr(newEps, oldEps)) == 40
    ensures EpsGrowthScore(oldEps, oldEps, EpsCagr(oldEps, oldEps)) == 40
  {
    var g := EpsCagr(oldEps, oldEps);
    assert g >= 0.0 && g <= 0.0;
  }

  /** Growing EPS never scores below 40; shrinking positive EPS never above
      40. */
  lemma EpsGrowthDirection(newEps: real, oldEps: real)
    requires oldEps > 0.0 && newEps > 0.0
    ensures newEps >= oldEps ==> EpsGrowthScore(newEps, oldEps, EpsCagr(newEps, oldEps)) >= 40
    ensures newEps < oldEps ==> EpsGrowthScore(newEps, oldEps, EpsCagr(newEps, oldEps)) <= 40
  {
  }

  // ---------------------------------------------------------------- composite

  /** Shareholder return score: 40% the mean of the two ROE scores, 60% the
      EPS score. */
  function EpsRoeScore(level: int, growth: int, eps: int): real
  {
    (level as real * 0.5 + growth as real * 0.5) * 0.4 + eps as real * 0.6
  }

  lemma EpsRoeScoreBounds(level: int, growth: int, eps: int)
    requires 40 <= level <= 100 && 40 <= growth <= 100 && 20 <= eps <= 100
    ensures 28.0 <= EpsRoeScore(level, growth, eps) <= 100.0
    ensures EpsRoeScore(level, growth, eps) == 100.0 <==> level == 100 && growth == 100 && eps == 100
  {
  }

  /** `1.05` when the latest operating margin beats its four-quarter mean,
      else `0.95`. */
  function MarginAdjustment(latestOpm: real, avg4Opm: real): (a: real)
    ensures a == 1.05 || a == 0.95
    ensures a > 1.0 <==> latestOpm > avg4Opm
  {
    if latestOpm > avg4Opm then 1.05 else 0.95
  }

  /** Next year's EPS: this year's, grown by the growth stage's projected rate
      and nudged 5% up or down by the operating margin. */
  function NextEps(newEps: real, nextGrowth: real, latestOpm: real, avg4Opm: real): real
  {
    newEps * (1.0 + nextGrowth) * MarginAdjustment(latestOpm, avg4Opm)
  }

  /** The projection keeps the sign of this year's EPS while the projected
      rate is above -100%, and a better margin always projects more. */
  lemma NextEpsProperties(newEps: real, g: real, latestOpm: real, avg4Opm: real)
    requires g > -1.0
    ensures newEps > 0.0 ==> NextEps(newEps, g, latestOpm, avg4Opm) > 0.0
    ensures newEps < 0.0 ==> NextEps(newEps, g, latestOpm, avg4Opm) < 0.0
    ensures newEps == 0.0 ==> NextEps(newEps, g, latestOpm, avg4Opm) == 0.0
    ensures newEps > 0.0 && latestOpm > avg4Opm ==>
      NextEps(newEps, g, latestOpm, avg4Opm) > newEps * (1.0 + g) > NextEps(newEps, g, avg4Opm, avg4Opm)
  {
    var base := newEps * (1.0 + g);
    if newEps > 0.0 { MulPositive(newEps, 1.0 + g); }
    if newEps < 0.0 { MulPositive(-newEps, 1.0 + g); assert base == -((-newEps) * (1.0 + g)); }
  }

  // ---------------------------------------------------------------- conversion

  datatype Conversion = HighQualityExpansion | EfficiencyGain | SteadyExpansion

  /** Profit conversion: strong EPS growth with a rising margin is high
      quality; revenue trend up with a rising margin is efficiency; anything
      else a plain expansion. */
  function ConversionOf(epsScore: int, trend: real, latestOpm: real, avg4Opm: real): (c: Conversion)
    ensures c == HighQualityExpansion <==> epsScore >= 80 && latestOpm > avg4Opm
    ensures c == EfficiencyGain <==> epsScore < 80 && trend > 0.0 && latestOpm > avg4Opm
    ensures latestOpm <= avg4Opm ==> c == SteadyExpansion
  {
    if epsScore >= 80 && latestOpm > avg4Opm then HighQualityExpansion
    else if trend > 0.0 && latestOpm > avg4Opm then EfficiencyGain
    else SteadyExpansion
  }

  // ---------------------------------------------------------------- master score

  /** 30% growth, 30% profit, 40% shareholder return. */
  function MasterScore(growth: real, profit: real, shareholder: real): real
  {
    growth * 0.3 + profit * 0.3 + shareholder * 0.4
  }

  /** With the three stage scores in their ranges (growth [28, 100], profit
      [35, 105], shareholder [28, 100]) the master score lies in
      [30.1, 101.5], and it grows with each of them. */
  lemma MasterScoreBounds(g: real, p: real, s: real)
    requires 28.0 <= g <= 100.0 && 35.0 <= p <= 105.0 && 28.0 <= s <= 100.0
    ensures 30.1 <= MasterScore(g, p, s) <= 101.5
  {
  }

  lemma MasterScoreMonotone(g: real, p: real, s: real, g': real, p': real, s': real)
    requires g <= g' && p <= p' && s <= s'
    ensures MasterScore(g, p, s) <= MasterScore(g', p', s')
  {
  }

  datatype Verdict =
    | King                  // all three engines firing
    | RealBreakout          // EPS and ROE drive the rally
    | OverheatWarning       // revenue-driven, profit lagging
    | StructuralTurnaround  // margins improving faster than revenue
    | RevenueExpansion      // market-share grab
    | DefensiveValue        // mature, profitable, slowing revenue
    | SteadyGrowth          // balanced
    | MomentumDecline       // revenue and margin both falling
    | Landmine              // fundamentals collapsing
    | Neutral               // nothing stands out

  /** The final verdict, first match wins. `improvement` is the profit
      stage's reported improvement, already rounded to 2 places. */
  function VerdictOf(m: real, g: real, p: real, s: real, improvement: real, trend: real): (v: Verdict)
    ensures v == King <==> m >= 90.0
    ensures v == Landmine <==> m < 40.0
    ensures 40.0 <= m < 60.0 ==> v == Neutral
    ensures v == OverheatWarning ==> 80.0 <= m < 90.0 && g >= 90.0 && p < 70.0
    ensures v == MomentumDecline ==> 60.0 <= m < 90.0 && improvement < 0.0 && trend < 0.0 && p < 60.0
    ensures m >= 60.0 && p >= 60.0 ==> v != Neutral && v != MomentumDecline
  {
    if m >= 90.0 then King
    else if m >= 80.0 && g >= 80.0 && p >= 80.0 && s >= 60.0 then RealBreakout
    else if m >= 80.0 && g >= 90.0 && p < 70.0 then OverheatWarning
    else if m >= 75.0 && improvement > 0.001 && p > g then StructuralTurnaround
    else if m >= 75.0 && g > p && trend > 0.1 then RevenueExpansion
    else if m >= 60.0 && p >= 70.0 && p > g && g < 60.0 then DefensiveValue
    else if m >= 60.0 && p >= 60.0 then SteadyGrowth
    else if m >= 60.0 && improvement < 0.0 && trend < 0.0 then MomentumDecline
    else if m < 40.0 then Landmine
    else Neutral
  }

  /** The improvement the verdict reads is rounded to 2 places, so its gate
      `> 0.001` opens only at 0.01 or more: a raw improvement under 0.005
      never reaches the structural-turnaround verdict, although the profit
      stage already scores one of 0.001 as improving. */
  lemma {:induction false} ImprovementGate(x: real)
    ensures Round(x, 2) > 0.001 ==> Round(x, 2) >= 0.01
    ensures x < 0.005 ==> !(Round(x, 2) > 0.001)
  {
    var n := RoundHalfEven(x * 100.0);
    assert Round(x, 2) == n as real / 100.0;
    if n <= 0 {
      assert n as real / 100.0 <= 0.0;
    } else {
      assert n as real >= 1.0;
    }
    if x < 0.005 {
      assert x * 100.0 < 0.5;
      assert n <= 0;
    }
  }

  // ---------------------------------------------------------------- the stage

  datatype ShareholderResult = ShareholderResult(
    latestRoe: real,
    roeGrowth: Option<real>,   // percent change on the previous year
    latestEps: real,
    epsGrowth: Option<real>,
    roeMean4: real,            // four-year mean ROE, rounded to 4 places
    epsCagr: real,
    conversion: Conversion,
    nextEps: real,
    epsRoeScore: real,
    masterScore: real,
    verdict: Verdict)

  /** The shareholder-return score of the last four years: the ROE level,
      ROE growth and EPS growth scores blended 0.2 / 0.2 / 0.6. */
  function ReturnScore(annual: seq<AnnualRow>): (s: real)
    requires |annual| >= MinYears
    ensures 28.0 <= s <= 100.0
  {
    var n := |annual|;
    var roes := Roes(annual);
    var last4 := Tail(roes, 4);
    var newEps, oldEps := annual[n - 1].eps, annual[n - 4].eps;
    var level := RoeLevelScore(annual[n - 1].roe, Max(last4), RoeMean4(roes));
    var roeGrowth := RoeGrowthScore(annual[n - 1].roe, annual[n - 2].roe, annual[n - 3].roe,
                                    annual[n - 4].roe, Mean(last4), newEps, annual[n - 2].eps);
    var epsScore := EpsGrowthScore(newEps, oldEps, EpsCagr(newEps, oldEps));
    EpsRoeScoreBounds(level, roeGrowth, epsScore);
    EpsRoeScore(level, roeGrowth, epsScore)
  }

  /** The stage on at least four annual rows and the two earlier stages'
      results. */
  function AnalyzeShareholder(annual: seq<AnnualRow>, growth: GrowthResult, profit: ProfitResult): (r: ShareholderResult)
    requires |annual| >= MinYears
    ensures var n := |annual|;
      && r.latestRoe == annual[n - 1].roe && r.latestEps == annual[n - 1].eps
      && (r.roeGrowth.None? <==> annual[n - 2].roe == 0.0)
      && (r.epsGrowth.None? <==> annual[n - 2].eps == 0.0)
      && (annual[n - 1].eps >= annual[n - 4].eps > 0.0 ==> r.epsCagr >= 0.0)
      && (annual[n - 4].eps >= annual[n - 1].eps > 0.0 ==> -1.0 < r.epsCagr <= 0.0)
      && (annual[n - 4].eps <= 0.0 || annual[n - 1].eps <= 0.0 ==> r.epsCagr == 0.0)
    ensures 28.0 <= r.epsRoeScore <= 100.0
    ensures r.masterScore == growth.totalScore * 0.3 + profit.totalScore * 0.3 + r.epsRoeScore * 0.4
    ensures r.verdict == King <==> r.masterScore >= 90.0
    ensures r.verdict == Landmine <==> r.masterScore < 40.0
    ensures profit.latestOpm <= profit.avg4Opm ==> r.conversion == SteadyExpansion
    ensures var n := |annual|; var roes := Roes(annual);
      var epsScore := EpsGrowthScore(annual[n - 1].eps, annual[n - 4].eps, r.epsCagr);
      && r.roeMean4 == RoeMean4(roes)
      && r.epsCagr == EpsCagr(annual[n - 1].eps, annual[n - 4].eps)
      && r.epsRoeScore == ReturnScore(annual)
      && r.conversion == ConversionOf(epsScore, growth.trend, profit.latestOpm, profit.avg4Opm)
      && r.nextEps == NextEps(annual[n - 1].eps, growth.nextGrowth, profit.latestOpm, profit.avg4Opm)
      && r.verdict == VerdictOf(r.masterScore, growth.totalScore, profit.totalScore, r.epsRoeScore,
                                profit.improvement, growth.trend)
  {
    var n := |annual|;
    var mean4 := RoeMean4(Roes(annual));
    var newEps := annual[n - 1].eps;
    var oldEps := annual[n - 4].eps;
    var cagr := EpsCagr(newEps, oldEps);
    var epsScore := EpsGrowthScore(newEps, oldEps, cagr);
    var shareholder := ReturnScore(annual);
    var master := MasterScore(growth.totalScore, profit.totalScore, shareholder);
    ShareholderResult(
      annual[n - 1].roe,
      PercentChange(annual[n - 1].roe, annual[n - 2].roe),
      newEps,
      PercentChange(newEps, annual[n - 2].eps),
      mean4,
      cagr,
      ConversionOf(epsScore, growth.trend, profit.latestOpm, profit.avg4Opm),
      NextEps(newEps, growth.nextGrowth, profit.latestOpm, profit.avg4Opm),
      shareholder,
      master,
      VerdictOf(master, growth.totalScore, profit.totalScore, shareholder, profit.improvement, growth.trend))
  }
}

=== FILE: sorting.dfy ===
/** Sorting by a real-valued key, as pandas' `sort_values` and Python's
    `sorted` do for the stages and the data preparation. */
module Sorting {

  ghost predicate SortedBy<T>(s: seq<T>, key: T -> real)
  {
    forall i, j :: 0 <= i < j < |s| ==> key(s[i]) <= key(s[j])
  }

  /** Inserts x into the sorted s in front of the first element whose key is
      not smaller. */
  function InsertBy<T>(x: T, s: seq<T>, key: T -> real): (r: seq<T>)
    requires SortedBy(s, key)
    ensures SortedBy(r, key)
    ensures multiset(r) == multiset(s) + multiset{x}
    ensures |r| == |s| + 1
  {
    if s == [] then [x]
    else if key(x) <= key(s[0]) then [x] + s
    else
      var rest := InsertBy(x, s[1..], key);
      assert forall k :: 0 <= k < |s[1..]| ==> key(s[0]) <= key(s[1..][k]);
      LowerBoundKept(s[0], x, s[1..], rest, key);
      assert s == [s[0]] + s[1..];
      [s[0]] + rest
  }

  /** A lower bound on the keys of t and on x bounds every key of a
      permutation of t with x added. */
  lemma LowerBoundKept<T>(a: T, x: T, t: seq<T>, r: seq<T>, key: T -> real)
    requires key(a) <= key(x)
    requires forall k :: 0 <= k < |t| ==> key(a) <= key(t[k])
    requires multiset(r) == multiset(t) + multiset{x}
    ensures forall k :: 0 <= k < |r| ==> key(a) <= key(r[k])
  {
    forall k | 0 <= k < |r|
      ensures key(a) <= key(r[k])
    {
      assert r[k] in multiset(r);
      if r[k] != x {
        assert r[k] in multiset(t);
        var j :| 0 <= j < |t| && t[j] == r[k];
      }
    }
  }

  /** Insertion sort: the result is ordered by key and is a permutation of s. */
  function SortBy<T>(s: seq<T>, key: T -> real): (r: seq<T>)
    ensures SortedBy(r, key)
    ensures multiset(r) == multiset(s)
    ensures |r| == |s|
  {
    if s == [] then []
    else
      assert s == [s[0]] + s[1..];
      InsertBy(s[0], SortBy(s[1..], key), key)
  }

  /** Every element of a permutation of s is an element of s. */
  lemma {:induction false} PermutationElements<T>(r: seq<T>, s: seq<T>, i: nat)
    requires multiset(r) == multiset(s) && i < |r|
    ensures r[i] in s
  {
    assert r[i] in multiset(r);
  }
}

=== FILE: stats.dfy ===
/** The pandas reductions the stages apply to a column: sum, mean, max, min,
    sample standard deviation, linear-interpolation quantile, clipping from
    above and the positive-value filter. */
module Stats {
  import opened Numeric
  import opened Sorting

  function Sum(s: seq<real>): real
  {
    if s == [] then 0.0 else Sum(s[..|s| - 1]) + s[|s| - 1]
  }

  /** The last n entries of s, as `tail(n)` or a rolling window ending at the
      last row. */
  function Tail<T>(s: seq<T>, n: nat): (t: seq<T>)
    requires n <= |s|
    ensures |t| == n && forall k :: 0 <= k < n ==> t[k] == s[|s| - n + k]
  {
    s[|s| - n..]
  }

  function Mean(s: seq<real>): real
    requires |s| > 0
  {
    Sum(s) / |s| as real
  }

  function Max(s: seq<real>): (m: real)
    requires |s| > 0
    ensures m in s
    ensures forall k :: 0 <= k < |s| ==> s[k] <= m
  {
    if |s| == 1 then s[0]
    else
      var m := Max(s[..|s| - 1]);
      if s[|s| - 1] > m then s[|s| - 1] else m
  }

  function Min(s: seq<real>): (m: real)
    requires |s| > 0
    ensures m in s
    ensures forall k :: 0 <= k < |s| ==> m <= s[k]
  {
    if |s| == 1 then s[0]
    else
      var m := Min(s[..|s| - 1]);
      if s[|s| - 1] < m then s[|s| - 1] else m
  }

  lemma DivMonotone(a: real, b: real, n: real)
    requires a <= b && n > 0.0
    ensures a / n <= b / n
  {
    assert b / n - a / n == (b - a) / n;
  }

  lemma DivStrictlyMonotone(a: real, b: real, n: real)
    requires a < b && n > 0.0
    ensures a / n < b / n
  {
    assert b / n - a / n == (b - a) / n;
  }

  lemma MulDivCancel(n: real, c: real)
    requires n != 0.0
    ensures (n * c) / n == c
  {
  }

  lemma DivNonNegative(a: real, n: real)
    requires a >= 0.0 && n > 0.0
    ensures a / n >= 0.0
  {
  }

  /** Sum of the squared deviations of s from m. */
  function SquaredDeviation(s: seq<real>, m: real): (r: real)
    ensures r >= 0.0
  {
    if s == [] then 0.0
    else
      var d := s[|s| - 1] - m;
      assert d * d >= 0.0 by { if d < 0.0 { MulMonotone(d, 0.0, -d); } }
      SquaredDeviation(s[..|s| - 1], m) + d * d
  }

  /** pandas' `std()`: the sample standard deviation (divisor n - 1), which
      is NaN for fewer than two values. */
  function SampleStd(s: seq<real>): (r: Option<real>)
    ensures r.Some? <==> |s| >= 2
    ensures r.Some? ==> r.value >= 0.0
  {
    if |s| < 2 then None
    else
      var v := SquaredDeviation(s, Mean(s)) / (|s| - 1) as real;
      DivNonNegative(SquaredDeviation(s, Mean(s)), (|s| - 1) as real);
      Some(Sqrt(v))
  }

  /** A series whose values are all c. */
  ghost predicate Constant(s: seq<real>, c: real)
  {
    forall k :: 0 <= k < |s| ==> s[k] == c
  }

  lemma {:induction false} SumConstant(s: seq<real>, c: real)
    requires Constant(s, c)
    ensures Sum(s) == |s| as real * c
  {
    if s != [] {
      SumConstant(s[..|s| - 1], c);
    }
  }

  lemma {:induction false} SquaredDeviationConstant(s: seq<real>, c: real)
    requires Constant(s, c)
    ensures SquaredDeviation(s, c) == 0.0
  {
    if s != [] {
      SquaredDeviationConstant(s[..|s| - 1], c);
    }
  }

  /** A flat series has mean c and standard deviation exactly 0. */
  lemma ConstantSpread(s: seq<real>, c: real)
    requires |s| >= 2 && Constant(s, c)
    ensures Mean(s) == c
    ensures SampleStd(s) == Some(0.0)
  {
    SumConstant(s, c);
    MulDivCancel(|s| as real, c);
    assert Mean(s) == c;
    SquaredDeviationConstant(s, c);
    assert SquaredDeviation(s, Mean(s)) / (|s| - 1) as real == 0.0;
  }

  /** A bound on every entry bounds the greatest one. */
  lemma {:induction false} MaxAtMost(s: seq<real>, b: real)
    requires |s| > 0 && forall k :: 0 <= k < |s| ==> s[k] <= b
    ensures Max(s) <= b
  {
    if |s| > 1 {
      MaxAtMost(s[..|s| - 1], b);
    }
  }

  /** Entries between lo and hi give a sum between n lo and n hi. */
  lemma {:induction false} SumBetween(s: seq<real>, lo: real, hi: real)
    requires forall k :: 0 <= k < |s| ==> lo <= s[k] <= hi
    ensures |s| as real * lo <= Sum(s) <= |s| as real * hi
  {
    if s != [] {
      SumBetween(s[..|s| - 1], lo, hi);
    }
  }

  /** The mean lies between the least and the greatest value. */
  lemma MeanBounds(s: seq<real>)
    requires |s| > 0
    ensures Min(s) <= Mean(s) <= Max(s)
  {
    MeanBetween(s, Min(s), Max(s));
  }

  lemma MeanBetween(s: seq<real>, lo: real, hi: real)
    requires |s| > 0 && forall k :: 0 <= k < |s| ==> lo <= s[k] <= hi
    ensures lo <= Mean(s) <= hi
  {
    var n := |s| as real;
    SumBetween(s, lo, hi);
    LowerMean(Sum(s), n, lo);
    UpperMean(Sum(s), n, hi);
  }

  lemma LowerMean(total: real, n: real, lo: real)
    requires n > 0.0 && n * lo <= total
    ensures lo <= total / n
  {
    MulDivCancel(n, lo);
    DivMonotone(n * lo, total, n);
  }

  lemma UpperMean(total: real, n: real, hi: real)
    requires n > 0.0 && total <= n * hi
    ensures total / n <= hi
  {
    MulDivCancel(n, hi);
    DivMonotone(total, n * hi, n);
  }

  /** The sum never drops when every entry grows or stays. */
  lemma {:induction false} SumMonotone(s: seq<real>, t: seq<real>)
    requires |s| == |t| && forall k :: 0 <= k < |s| ==> s[k] <= t[k]
    ensures Sum(s) <= Sum(t)
  {
    if s != [] {
      SumMonotone(s[..|s| - 1], t[..|t| - 1]);
    }
  }

  /** ... and drops strictly when one entry drops strictly. */
  lemma {:induction false} SumStrictlyMonotone(s: seq<real>, t: seq<real>, i: nat)
    requires |s| == |t| && forall k :: 0 <= k < |s| ==> s[k] <= t[k]
    requires i < |s| && s[i] < t[i]
    ensures Sum(s) < Sum(t)
  {
    if i == |s| - 1 {
      SumMonotone(s[..|s| - 1], t[..|t| - 1]);
    } else {
      SumStrictlyMonotone(s[..|s| - 1], t[..|t| - 1], i);
    }
  }

  /** The values of s in ascending order. */
  function SortReals(s: seq<real>): (v: seq<real>)
    ensures forall i, j :: 0 <= i <= j < |v| ==> v[i] <= v[j]
    ensures multiset(v) == multiset(s) && |v| == |s|
  {
    var v := SortBy(s, x => x);
    assert forall i, j :: 0 <= i <= j < |v| ==> v[i] <= v[j] by {
      forall i, j | 0 <= i <= j < |v| ensures v[i] <= v[j] {
        if i < j { assert (x => x)(v[i]) <= (x => x)(v[j]); }
      }
    }
    v
  }

  /** pandas' `quantile(q)` with its default linear interpolation: sort, take
      the fractional position q * (n - 1) and interpolate between the two
      neighbouring order statistics. It lies between the least and the
      greatest value. */
  function Quantile(s: seq<real>, q: real): (r: real)
    requires |s| > 0 && 0.0 <= q <= 1.0
    ensures Min(s) <= r <= Max(s)
  {
    var v := SortReals(s);
    var pos := Position(q, |v|);
    QuantileBounds(v, s, pos);
    Interpolate(v, pos)
  }

  function Position(q: real, n: nat): (p: real)
    requires 0.0 <= q <= 1.0 && n > 0
    ensures 0.0 <= p <= (n - 1) as real
  {
    ScaledPosition(q, n - 1);
    q * (n - 1) as real
  }

  lemma QuantileBounds(v: seq<real>, s: seq<real>, pos: real)
    requires |s| > 0 && multiset(v) == multiset(s) && |v| == |s|
    requires forall i, j :: 0 <= i <= j < |v| ==> v[i] <= v[j]
    requires 0.0 <= pos <= (|v| - 1) as real
    ensures Min(s) <= Interpolate(v, pos) <= Max(s)
  {
    PermutationElements(v, s, 0);
    PermutationElements(v, s, |v| - 1);
  }

  /** The value at fractional position pos of the ordered v: between the
      order statistics at floor(pos) and the next one. */
  function Interpolate(v: seq<real>, pos: real): (r: real)
    requires forall i, j :: 0 <= i <= j < |v| ==> v[i] <= v[j]
    requires 0.0 <= pos <= (|v| - 1) as real
    ensures v[0] <= r <= v[|v| - 1]
  {
    var lo := pos.Floor;
    var hi := if lo + 1 < |v| then lo + 1 else |v| - 1;
    assert 0 <= lo <= hi < |v|;
    assert v[0] <= v[lo] <= v[hi] <= v[|v| - 1];
    Lerp(v[lo], v[hi], pos - lo as real)
  }

  lemma ScaledPosition(q: real, m: nat)
    requires 0.0 <= q <= 1.0
    ensures 0.0 <= q * m as real <= m as real
  {
    MulMonotone(q, 1.0, m as real);
    MulMonotone(0.0, q, m as real);
  }

  /** Linear interpolation from a to b at fraction f stays between them. */
  function Lerp(a: real, b: real, f: real): (r: real)
    requires a <= b && 0.0 <= f <= 1.0
    ensures a <= r <= b
  {
    var d := b - a;
    MulMonotone(0.0, f, d);
    MulMonotone(f, 1.0, d);
    assert 0.0 <= f * d <= d;
    a + f * d
  }

  /** pandas' `clip(upper=u)`: every value above u becomes u. */
  function Clip(s: seq<real>, u: real): (r: seq<real>)
    ensures |r| == |s|
    ensures forall k :: 0 <= k < |s| ==> r[k] <= u && r[k] <= s[k]
    ensures forall k :: 0 <= k < |s| && s[k] <= u ==> r[k] == s[k]
    ensures forall k :: 0 <= k < |s| && s[k] > u ==> r[k] == u
  {
    seq(|s|, k requires 0 <= k < |s| => MinReal(s[k], u))
  }

  /** Clipping keeps the order of any two values: it never reorders. */
  lemma ClipKeepsOrder(s: seq<real>, u: real, i: nat, j: nat)
    requires i < |s| && j < |s| && s[i] <= s[j]
    ensures Clip(s, u)[i] <= Clip(s, u)[j]
  {
  }

  /** Clipping from above never raises the mean, and lowers it when some value
      lay above the limit. */
  lemma ClipLowersMean(s: seq<real>, u: real)
    requires |s| > 0
    ensures Mean(Clip(s, u)) <= Mean(s)
    ensures (exists k :: 0 <= k < |s| && s[k] > u) ==> Mean(Clip(s, u)) < Mean(s)
  {
    var c := Clip(s, u);
    var n := |s| as real;
    assert Mean(c) == Sum(c) / n && Mean(s) == Sum(s) / n;
    SumMonotone(c, s);
    DivMonotone(Sum(c), Sum(s), n);
    if exists k :: 0 <= k < |s| && s[k] > u {
      var k :| 0 <= k < |s| && s[k] > u;
      SumStrictlyMonotone(c, s, k);
      DivStrictlyMonotone(Sum(c), Sum(s), n);
    }
  }

  /** `series[series > 0]`: the positive values in their original order. */
  function Positives(s: seq<real>): (r: seq<real>)
    ensures |r| <= |s|
    ensures forall k :: 0 <= k < |r| ==> r[k] > 0.0
    ensures forall x :: x in r <==> x in s && x > 0.0
    ensures forall x :: multiset(r)[x] == if x > 0.0 then multiset(s)[x] else 0
  {
    if s == [] then []
    else
      var init := Positives(s[..|s| - 1]);
      assert s == s[..|s| - 1] + [s[|s| - 1]];
      if s[|s| - 1] > 0.0 then init + [s[|s| - 1]] else init
  }
}

=== FILE: valuation.dfy ===
/** The valuation stage: winsorises the positive P/E history at its 95th
    percentile, builds a cheap / fair / expensive price band from the mean
    P/E plus or minus one standard deviation times the projected EPS, values
    the stock by compounding its net asset value at ROE over the bond yield
    for ten years, and reads the current price against both. */
module Valuation {
  import opened Numeric
  import opened Stats
  import opened Annual

  /** One day of the P/E and P/B history, oldest first. */
  datatype ValuationRow = ValuationRow(per: real, pbr: real)

  /** The latest price as the caller passes it: a quote record whose `close`
      may be absent, or a bare number that may be missing. */
  datatype PriceQuote = Quote(close: Option<real>) | Plain(value: Option<real>)

  function PriceOf(q: PriceQuote): (p: real)
    ensures q.Quote? && q.close.Some? ==> p == q.close.value
    ensures q.Plain? && q.value.Some? ==> p == q.value.value
    ensures (q.Quote? && q.close.None?) || (q.Plain? && q.value.None?) ==> p == 0.0
  {
    match q
    case Quote(c) => if c.Some? then c.value else 0.0
    case Plain(v) => if v.Some? then v.value else 0.0
  }

  function Pers(history: seq<ValuationRow>): (r: seq<real>)
    ensures |r| == |history| && forall k :: 0 <= k < |history| ==> r[k] == history[k].per
  {
    seq(|history|, k requires 0 <= k < |history| => history[k].per)
  }

  /** Ceiling of ROE the intrinsic value compounds at. */
  const MaxSustainableRoe: real := 0.25
  /** Years the intrinsic value compounds over. */
  const Horizon: nat := 10

  // ---------------------------------------------------------------- P/E band

  /** Statistics of the winsorised P/E series. */
  datatype PeStats = PeStats(upper: real, max: real, min: real, avg: real, std: Option<real>)

  /** The 95th percentile of the positive P/Es caps the series; max, min and
      mean of the capped series are rounded to 2 places, the sample standard
      deviation is kept as is (undefined for a single value). */
  function PeStatsOf(pos: seq<real>): (s: PeStats)
    requires |pos| > 0
    ensures Min(pos) <= s.upper <= Max(pos)
    ensures s.min <= s.avg <= s.max <= Round(s.upper, 2)
    ensures Min(pos) - 0.005 <= s.min
    ensures s.std.Some? <==> |pos| >= 2
    ensures s.std.Some? ==> s.std.value >= 0.0
  {
    var upper := Quantile(pos, 0.95);
    var clipped := Clip(pos, upper);
    MeanBounds(clipped);
    assert Min(pos) <= Min(clipped) by {
      var k :| 0 <= k < |clipped| && clipped[k] == Min(clipped);
    }
    RoundMonotone(Min(clipped), Mean(clipped), 2);
    RoundMonotone(Mean(clipped), Max(clipped), 2);
    RoundMonotone(Max(clipped), upper, 2);
    PeStats(upper, Round(Max(clipped), 2), Round(Min(clipped), 2), Round(Mean(clipped), 2),
            SampleStd(clipped))
  }

  /** Price targets: (mean P/E minus, plus, one deviation) times EPS, and the
      mean P/E times EPS, each rounded to 2 places. Without a deviation the
      outer two are undefined (NaN in the source). */
  datatype Targets = Targets(cheap: Option<real>, fair: real, expensive: Option<real>)

  /** A price target: a P/E times EPS, rounded to 2 places. */
  function TargetPrice(pe: real, eps: real): real
  {
    Round(pe * eps, 2)
  }

  /** With a non-negative EPS a higher P/E never gives a lower target. */
  lemma TargetPriceMonotone(pe: real, pe': real, eps: real)
    requires pe <= pe' && eps >= 0.0
    ensures TargetPrice(pe, eps) <= TargetPrice(pe', eps)
  {
    MulMonotone(pe, pe', eps);
    RoundMonotone(pe * eps, pe' * eps, 2);
  }

  function TargetsOf(avg: real, std: Option<real>, eps: real): (t: Targets)
    ensures t.cheap.Some? <==> std.Some?
    ensures t.expensive.Some? <==> std.Some?
    ensures t.fair == TargetPrice(avg, eps)
    ensures std.Some? ==> t.cheap.value == TargetPrice(avg - std.value, eps)
    ensures std.Some? ==> t.expensive.value == TargetPrice(avg + std.value, eps)
  {
    if std.Some? then
      Targets(Some(TargetPrice(avg - std.value, eps)), TargetPrice(avg, eps),
              Some(TargetPrice(avg + std.value, eps)))
    else Targets(None, TargetPrice(avg, eps), None)
  }

  /** With a non-negative EPS the band is ordered cheap <= fair <= expensive. */
  lemma TargetsOrdered(avg: real, std: real, eps: real)
    requires std >= 0.0 && eps >= 0.0
    ensures var t := TargetsOf(avg, Some(std), eps);
      t.cheap.value <= t.fair <= t.expensive.value
  {
    TargetPriceMonotone(avg - std, avg, eps);
    TargetPriceMonotone(avg, avg + std, eps);
  }

  // ---------------------------------------------------------------- intrinsic value

  /** Net asset value per share, price over P/B rounded to 2 places; 0 when
      P/B is not positive. */
  function NavOf(price: real, pb: real): (nav: real)
    ensures pb <= 0.0 ==> nav == 0.0
    ensures pb > 0.0 && price >= 0.0 ==> nav >= 0.0
  {
    if pb > 0.0 then
      RoundSign(price / pb, 2);
      Round(price / pb, 2)
    else 0.0
  }

  /** NAV compounded for ten years at ROE (capped at 25%) less the bond yield
      (given in percent), rounded to 2 places. */
  function IntrinsicValue(nav: real, roe: real, bondPercent: real): real
  {
    Grown(nav, Compounded(1.0 + (MinReal(roe, MaxSustainableRoe) - bondPercent / 100.0)))
  }

  /** NAV times a growth factor, rounded to 2 places. */
  function Grown(nav: real, growth: real): real
  {
    Round(nav * growth, 2)
  }

  /** Growth factor over the horizon. */
  function Compounded(rate: real): real
  {
    Power(rate, Horizon)
  }

  /** No NAV, no intrinsic value; when the capped ROE at least matches the
      bond yield the intrinsic value is at least the (rounded) NAV. */
  lemma IntrinsicValueProperties(nav: real, roe: real, bondPercent: real)
    ensures nav == 0.0 ==> IntrinsicValue(nav, roe, bondPercent) == 0.0
    ensures nav >= 0.0 && MinReal(roe, MaxSustainableRoe) >= bondPercent / 100.0 ==>
      IntrinsicValue(nav, roe, bondPercent) >= Round(nav, 2)
  {
    var rate := 1.0 + (MinReal(roe, MaxSustainableRoe) - bondPercent / 100.0);
    if rate >= 1.0 {
      PowerAtLeastOne(rate, Horizon);
    }
    GrownProperties(nav, Compounded(rate));
  }

  lemma GrownProperties(nav: real, growth: real)
    ensures nav == 0.0 ==> Grown(nav, growth) == 0.0
    ensures nav >= 0.0 && growth >= 1.0 ==> Grown(nav, growth) >= Round(nav, 2)
  {
    if nav == 0.0 {
      assert nav * growth == 0.0;
      RoundZero(2);
    }
    if nav >= 0.0 && growth >= 1.0 {
      MulMonotone(1.0, growth, nav);
      RoundMonotone(nav, nav * growth, 2);
    }
  }

  // ---------------------------------------------------------------- verdict

  datatype PriceVerdict =
    | AbsoluteUndervalued  // at or below cheap and below intrinsic value
    | HistoricLow          // at or below cheap
    | PoisedToRise         // at or below fair and below intrinsic value
    | FairRange            // at or below fair
    | Rerating             // at or below expensive and below intrinsic value
    | Premium              // at or below expensive
    | Overheated           // above the band

  /** `price <= target`, false when the target is undefined (a comparison
      with NaN). */
  predicate AtMost(price: real, target: Option<real>)
  {
    target.Some? && price <= target.value
  }

  /** First match wins. */
  function VerdictOf(price: real, t: Targets, intrinsic: real): (v: PriceVerdict)
    ensures v == AbsoluteUndervalued <==> AtMost(price, t.cheap) && price < intrinsic
    ensures v == HistoricLow <==> AtMost(price, t.cheap) && price >= intrinsic
    ensures v == Overheated <==> !AtMost(price, t.cheap) && price > t.fair && !AtMost(price, t.expensive)
    ensures price >= intrinsic ==> v != AbsoluteUndervalued && v != PoisedToRise && v != Rerating
  {
    if AtMost(price, t.cheap) && price < intrinsic then AbsoluteUndervalued
    else if AtMost(price, t.cheap) then HistoricLow
    else if price <= t.fair && price < intrinsic then PoisedToRise
    else if price <= t.fair then FairRange
    else if AtMost(price, t.expensive) && price < intrinsic then Rerating
    else if AtMost(price, t.expensive) then Premium
    else Overheated
  }

  /** Above an ordered band the verdict is Overheated; within it, where the
      price falls decides the tier. */
  lemma VerdictByBand(price: real, avg: real, std: real, eps: real, intrinsic: real)
    requires std >= 0.0 && eps >= 0.0
    ensures var t := TargetsOf(avg, Some(std), eps);
      && (price > t.expensive.value ==> VerdictOf(price, t, intrinsic) == Overheated)
      && (t.cheap.value < price <= t.fair ==>
            VerdictOf(price, t, intrinsic) == (if price < intrinsic then PoisedToRise else FairRange))
      && (t.fair < price <= t.expensive.value ==>
            VerdictOf(price, t, intrinsic) == (if price < intrinsic then Rerating else Premium))
  {
    TargetsOrdered(avg, std, eps);
  }

  /** A single positive P/E has no deviation: the band collapses to the fair
      price, and anything above it is Overheated. */
  lemma SinglePeBand(price: real, avg: real, eps: real, intrinsic: real)
    ensures var t := TargetsOf(avg, None, eps);
      && VerdictOf(price, t, intrinsic) !in {AbsoluteUndervalued, HistoricLow, Rerating, Premium}
      && (price > t.fair ==> VerdictOf(price, t, intrinsic) == Overheated)
  {
  }

  // ---------------------------------------------------------------- the stage

  datatype ValuationResult = ValuationResult(
    price: real,
    nav: real,
    currentPe: real,       // latest P/E, rounded to 2 places
    peMax: real,
    peMin: real,
    peAvg: real,
    cheap: Option<real>,
    fair: real,
    expensive: Option<real>,
    bond: real,            // the bond yield as a fraction
    intrinsic: real,
    verdict: PriceVerdict)

  /** No valuation without history or without a positive P/E. */
  datatype ValuationOutcome = NoValuation | Valued(result: ValuationResult)

  /** The stage. The ROE of the last annual row is read only once a band
      exists, so only then must the annual table be non-empty. */
  function AnalyzeValuation(history: seq<ValuationRow>, quote: PriceQuote, bondPercent: real,
                            eps: real, annual: seq<AnnualRow>): (r: ValuationOutcome)
    requires |Positives(Pers(history))| > 0 ==> |annual| > 0
    ensures r.NoValuation? <==> |Positives(Pers(history))| == 0
    ensures r.Valued? ==> var v := r.result;
      && v.price == PriceOf(quote)
      && v.peMin <= v.peAvg <= v.peMax
      && Min(Positives(Pers(history))) - 0.005 <= v.peMin
      && v.peMax <= Max(Positives(Pers(history))) + 0.005
      && (v.cheap.Some? <==> |Positives(Pers(history))| >= 2)
      && v.bond * 100.0 == bondPercent
      && (history[|history| - 1].pbr <= 0.0 ==> v.nav == 0.0 && v.intrinsic == 0.0)
      && (v.verdict == Overheated <==> !AtMost(v.price, v.cheap) && v.price > v.fair && !AtMost(v.price, v.expensive))
    ensures r.Valued? ==> var v := r.result; var stats := PeStatsOf(Positives(Pers(history)));
      var latest := history[|history| - 1];
      && v.peMax == stats.max && v.peMin == stats.min && v.peAvg == stats.avg
      && v.currentPe == Round(latest.per, 2)
      && v.nav == NavOf(v.price, latest.pbr)
      && Targets(v.cheap, v.fair, v.expensive) == TargetsOf(v.peAvg, stats.std, eps)
      && v.intrinsic == IntrinsicValue(v.nav, annual[|annual| - 1].roe, bondPercent)
      && v.verdict == VerdictOf(v.price, Targets(v.cheap, v.fair, v.expensive), v.intrinsic)
  {
    var pos := Positives(Pers(history));
    if |history| == 0 || |pos| == 0 then NoValuation
    else
      var price := PriceOf(quote);
      var stats := PeStatsOf(pos);
      RoundMonotone(stats.upper, Max(pos), 2);
      var latest := history[|history| - 1];
      var nav := NavOf(price, latest.pbr);
      var targets := TargetsOf(stats.avg, stats.std, eps);
      var roe := annual[|annual| - 1].roe;
      var intrinsic := IntrinsicValue(nav, roe, bondPercent);
      IntrinsicValueProperties(nav, roe, bondPercent);
      Valued(ValuationResult(price, nav, Round(latest.per, 2), stats.max, stats.min, stats.avg,
                             targets.cheap, targets.fair, targets.expensive, bondPercent / 100.0,
                             intrinsic, VerdictOf(price, targets, intrinsic)))
  }

  /** For a non-negative EPS the stage's own band is ordered whenever it has
      both ends, and a price above it is Overheated. */
  lemma StageBandOrdered(history: seq<ValuationRow>, quote: PriceQuote, bondPercent: real,
                         eps: real, annual: seq<AnnualRow>)
    requires |Positives(Pers(history))| > 0 ==> |annual| > 0
    requires eps >= 0.0
    ensures var r := AnalyzeValuation(history, quote, bondPercent, eps, annual);
      r.Valued? && r.result.cheap.Some? ==>
        && r.result.cheap.value <= r.result.fair <= r.result.expensive.value
        && (r.result.price > r.result.expensive.value ==> r.result.verdict == Overheated)
  {
    var r := AnalyzeValuation(history, quote, bondPercent, eps, annual);
    if r.Valued? && r.result.cheap.Some? {
      var v := r.result;
      var stats := PeStatsOf(Positives(Pers(history)));
      var t := Targets(v.cheap, v.fair, v.expensive);
      assert t == TargetsOf(v.peAvg, stats.std, eps);
      assert stats.std.Some? && stats.std.value >= 0.0;
      TargetsOrdered(v.peAvg, stats.std.value, eps);
      VerdictByBand(v.price, v.peAvg, stats.std.value, eps, v.intrinsic);
      assert v.verdict == VerdictOf(v.price, t, v.intrinsic);
    }
  }
}
